=== FILE: README.md ===
# vcbt table writer, modelled in Dafny

vcbt is a command-line viewer for a Bigtable table. It reads the rows under a
row-key prefix and prints them as a text table. The table opens with a row of
column families, handed to the writer as its header (line 80). A row of column
names follows, appended as an ordinary row and then a separator (lines 81-82).
After that comes one data row per row key. The heart of the program is
`WriteTable` (representation/table.go). It makes two passes:

1. A collector fold over the rows the client delivers builds three things:
   - a column directory (family → column → index);
   - a grid (row key → index → stored value);
   - a running `columnIndex` counter.

   Every stored value is cut to the cell-size limit.
2. Once the read succeeds and at least one row was collected, the fold's state
   becomes the header rows and the data rows. In each data row an optional value
   mapper takes precedence over the raw bytes.

main.go supplies two things: a default limit of `math.MaxInt`, and a mapper that
shows nil values as `<deleted>` and values that start with a zero byte as
`<pending>`.

The model has six modules, one file each:

- `Go` (go.dfy): the Go semantics the core relies on:
  - nil versus empty byte slices (`Bytes`);
  - run-time panics (`Run`);
  - `strings.TrimPrefix`;
  - `math.MaxInt` on 64-bit platforms.
- `Bigtable` (bigtable.dfy): what `ReadRows` hands the callback:
  - rows of families of cells;
  - the error it returns;
  - the latest-version-only property the read filter guarantees.
- `Collector` (collector.dfy): the fold of lines 33-56, and what it guarantees about the directory, the counter and the grid.
- `Renderer` (renderer.dfy): lines 65-97, meaning the header rows, the data rows and the value mapper's precedence.
- `Representation` (representation.dfy): `WriteTable` as a whole. It returns a table, the read error, the empty-result error, or a panic.
- `Vcbt` (vcbt.dfy): main.go's default limit and mapper.

Go iterates maps in an unspecified order. The model takes the orders of the
table-building loops as a `Schedule` parameter:

- an iteration of the directory (lines 73-74);
- an iteration of the row keys (line 84);
- an iteration of each row's indices (line 87).

The model then proves which results do not depend on them. The fourth map
iteration, over a row's families (line 38), is not part of the schedule: the
model visits families in the order of `Row.families`, and column positions do
depend on that order (`Collector.FamilyOrderDecidesIndices`).

Behaviour worth knowing, as the code has it:

- **Indices are per cell, not per column.** Line 39 replaces a family's directory with an empty map each time the family appears in a row. So within a row every distinct column of a family gets a fresh index, and the same column in the next row gets another one.
  - With the latest-version filter, `columnIndex` ends at the number of delivered cells (`CollectCountsCells`).
  - For each family, the directory keeps only the indices of the last row that mentions it. After a row, each of its families holds only indices handed out during that row (`VisitRowKeepsOnlyItsIndices`), and families the row does not mention are unchanged (`VisitRowDirectory`). `IndexNotStableAcrossRows` shows the case of two rows.
  - Under the latest-version filter, the directory and the grid still agree: the entry at index i names the column of the cell whose value is stored at i (`CollectNames`). So each value sits under the header of its own column (`WriteTableValuesUnderTheirHeader`).
  - A family's indices from earlier rows stay in the grid. Once a later row mentions the family again, the header no longer names them, and those slots stay unset. A family that no later row mentions keeps naming its earlier indices (`IndexKeptByUnmentionedFamily`).
- **The family order of a row decides column positions.** Indices are handed out in the order a row's families are visited (line 38), which Go does not fix. So two runs over the same data can place the same column at different positions (`FamilyOrderDecidesIndices`).
- **Deleted values are stored.** A nil value is stored in the grid like any other. The reference mapper then shows it as `<deleted>`; it is not left blank.
- **A repeated column in one family breaks injectivity.** If a family of one row lists the same column twice, the directory entry is overwritten with the current index. Two columns can then share an index (`RepeatedColumnBreaksInjectivity`). The read filter `LatestNFilter(1)` rules this out, so the order-independence results assume it (`LatestVersionOnly`).
- **A negative cell-size limit panics.** `cell.Value[:limitCellSize]` panics on the first cell, because every length exceeds a negative limit.

## Model

| member | source | states |
|---|---|---|
| `Go.TrimPrefix` | representation/table.go:76 | The column label is the column name without a leading `family:`, so prepending the prefix gives back the name. Without that prefix, the name is kept whole. |
| `Go.TrimPrefixOfPrefixed` | representation/table.go:76 | A column written as `family:rest` is labelled `rest`: removing a prefix just prepended gives back the original. |
| `Bigtable.CellRowKeysEmpty` | representation/table.go:37-56 | The delivered rows carry a row key exactly when they hold at least one cell. |
| `Bigtable.DeliveredCellsMembers` | representation/table.go:37-40 | The callback visits every delivered cell: a cell is in the delivery order exactly when some family of some row holds it. |
| `Collector.Truncate` | representation/table.go:48-52 | The stored value is nil exactly when the cell's value is nil. Its bytes are a prefix of the value's bytes, and its length is the smaller of the value's length and the limit. |
| `Collector.TruncateKeepsShortValues` | representation/table.go:50-52 | A value no longer than the limit is stored unchanged. |
| `Collector.Enter` | representation/table.go:44 | Setting a directory entry adds its column to the family. Every other entry of that family keeps its index, and every other family's directory stays exactly as it was. |
| `Collector.Store` | representation/table.go:45-52 | Storing a value adds its row key to the grid and keeps every other stored value. Every entry afterwards is either the new one or an old one. |
| `Collector.VisitCell` | representation/table.go:41-52 | The counter moves up by one exactly when the column is new to the family's directory, and otherwise stays. The directory entry and the stored truncated value both sit at the current counter. Every other directory entry keeps its index, and every other stored value stays where it was. Indices stay within `[1, columnIndex]` and grid rows stay non-empty. |
| `Collector.VisitCellAddsNothingElse` | representation/table.go:41-52 | Nothing new appears elsewhere after one cell: every other family's directory is exactly as before, and the only stored value that may be new is the one under the cell's row key at the current counter. |
| `Collector.VisitCells` | representation/table.go:40-53 | A family's cells keep the set of families, never lower the counter, and keep the index bounds and non-empty grid rows. |
| `Collector.VisitFamily` | representation/table.go:38-53 | Visiting a family adds it to the directory. The counter never goes down, and the bounds are kept. |
| `Collector.VisitFamilies` | representation/table.go:38-54 | After a row, the directory's families are the old ones plus the row's families. The counter never goes down, and the bounds are kept. The callback body of lines 37-56 is this step on the row's families (`VisitRow`). |
| `Collector.CollectFrom` | representation/table.go:37-56 | Folding further rows only adds families and never lowers the counter. It keeps indices within `[1, columnIndex]` and grid rows non-empty. |
| `Collector.Collect` | representation/table.go:33-56 | After the fold from empty maps and a zero counter, every directory index and grid index lies in `[1, columnIndex]`, and every grid row holds a value. |
| `Collector.VisitCellsDirectory` | representation/table.go:40-44 | A family's cells add exactly their column names to its directory and leave every other family untouched. |
| `Collector.VisitFamilyDirectory` | representation/table.go:39-44 | After a family is visited, its directory holds exactly that family's columns in this row, and other families are untouched. |
| `Collector.VisitFamiliesDirectory` | representation/table.go:38-44 | For a row with distinct families, each of the row's families ends up with exactly its columns in the row. Families absent from the row keep their directory. |
| `Collector.VisitRowDirectory` | representation/table.go:38-54 | After a row, the directory's families are the old ones plus the row's families. A present family holds exactly its columns in that row, and an absent family is unchanged. |
| `Collector.VisitCellsAllocatesFresh` | representation/table.go:40-44 | Cells with distinct columns new to the family each take a fresh index. The counter rises by the number of cells, and no two directory entries share an index. |
| `Collector.VisitFamiliesAllocatesFresh` | representation/table.go:38-54 | For a row with duplicate-free columns per family, every cell takes a fresh index, and directory indices stay distinct. |
| `Collector.CollectFromAllocatesFresh` | representation/table.go:37-56 | Over latest-version rows, the counter rises by the number of cells, and directory indices stay distinct. |
| `Collector.CollectInjective` | representation/table.go:37-56 | Under the latest-version filter, no two (family, column) entries share an index. |
| `Collector.CollectCountsCells` | representation/table.go:41-43 | Under the latest-version filter, the final counter equals the number of delivered cells. |
| `Collector.VisitCellsRowKeys` | representation/table.go:45-47 | A family's cells add exactly the row keys they carry to the grid. |
| `Collector.VisitFamiliesRowKeys` | representation/table.go:45-47 | A row's families add exactly the row keys their cells carry. |
| `Collector.CollectFromRowKeys` | representation/table.go:45-47 | Folding rows adds exactly the row keys their cells carry. |
| `Collector.CollectRowKeys` | representation/table.go:45-47 | A row key is in the grid exactly when some delivered cell carries it. The grid is empty exactly when no cell was delivered. |
| `Collector.VisitCellsStores` | representation/table.go:48-52 | If a property holds of the old grid and of every truncated value of a family, it holds of the new grid. |
| `Collector.VisitFamiliesStores` | representation/table.go:48-52 | If a property holds of the old grid and of every truncated value of a row, it holds of the new grid. |
| `Collector.CollectFromStores` | representation/table.go:48-52 | If a property holds of the old grid and of every truncated delivered value, it holds of every stored value. |
| `Collector.CollectStores` | representation/table.go:48-52 | Whatever holds of every truncated delivered value holds of every value in the grid. |
| `Collector.CollectRespectsLimit` | representation/table.go:48-52 | No stored value is longer than the cell-size limit. |
| `Collector.VisitCellGrid` | representation/table.go:41-52 | A cell whose column is new to its family's directory is stored at the next index under its own row key and overwrites no earlier value. |
| `Collector.CollectFromGrid` | representation/table.go:37-56 | Over latest-version rows, the fold stores the cells in delivery order, each at its own next index, and stores nothing else. |
| `Collector.CollectKeepsEveryValue` | representation/table.go:37-56 | Under the latest-version filter no delivered value is lost or overwritten. The k-th delivered cell, cut to the limit, sits at index k + 1 under the row key it carries. No other cell gets that index, and every stored value is one of these. |
| `Collector.VisitCellNames` | representation/table.go:41-52 | A cell whose column is new to its family gets a directory entry that names it at the index where its value is stored. Every earlier entry still names its own cell. |
| `Collector.CollectFromNames` | representation/table.go:37-56 | Over latest-version rows, the fold keeps every directory entry naming the column of the delivered cell at its index. |
| `Collector.CollectNames` | representation/table.go:41-52 | Under the latest-version filter, the directory and the grid agree. An entry (family, column) with index i names the column of the i-th delivered cell, whose value is stored at i. Lines 44 and 49/51 write the same `columnIndex`. |
| `Collector.VisitRowKeepsOnlyItsIndices` | representation/table.go:38-44 | After a row, every directory entry of each of the row's families holds an index handed out during that row. The indices earlier rows gave these families are gone from the directory. |
| `Collector.VisitSingleCellRow` | representation/table.go:38-52 | A row with one family and one cell leaves that family's directory as that single column at the next index. The value is stored there in the row's grid entry. |
| `Collector.IndexNotStableAcrossRows` | representation/table.go:39-44 | Two rows with the same family and column store their values at indices 1 and 2. The directory then names only index 2. |
| `Collector.IndexKeptByUnmentionedFamily` | representation/table.go:37-56 | A row that does not mention a family leaves that family's entries alone: after a row holding only `f` and a row holding only `g`, `f`'s column is still named at index 1 and `g`'s column at index 2, with both values stored. |
| `Collector.RepeatedColumnBreaksInjectivity` | representation/table.go:41-44 | A family listing one column twice overwrites the first entry's index. Two columns then share index 2, and the directory is no longer injective. |
| `Collector.FamilyOrderDecidesIndices` | representation/table.go:38-44 | Column positions depend on the order of a row's families. With one cell in each of families `f` and `g`, `f`'s column takes index 1 when `f` is visited first and index 2 when `g` is. |
| `Renderer.RenderCell` | representation/table.go:88-94 | Rendering panics exactly when the mapper panics. A text slot means the mapper reported the value as mapped with that string. Otherwise the slot holds the value's raw bytes, and there was no mapper or it declined. |
| `Renderer.FillHeader` | representation/table.go:73-78 | The header loop keeps both rows' lengths and leaves every slot that no entry names as it was. |
| `Renderer.BuildHeader` | representation/table.go:68-78 | Both header rows have `columnIndex + 1` slots. Each starts as `make(table.Row, columnIndex+1)` with slot 0 set to `""` (`Blank`). |
| `Renderer.FillHeaderWritten` | representation/table.go:73-78 | When entries that share an index are equal, every entry's slot holds its family and short column name after the loop, whatever the order. |
| `Renderer.HeaderSlots` | representation/table.go:68-78 | With distinct indices, the family row names each entry's family at its index. The column row names its short column name, which is the column without a leading `family:` (`ShortName`, line 76). Every unnamed slot is `""` at 0 and unset elsewhere. |
| `Renderer.HeaderOrderIndependent` | representation/table.go:73-78 | With distinct indices, any two iteration orders of the directory give the same header rows. |
| `Renderer.FillRow` | representation/table.go:87-95 | Without a panic, the row keeps its length, and slots the iteration does not visit keep their values. |
| `Renderer.FillRowSlots` | representation/table.go:87-95 | The row loop panics exactly when some visited value's rendering panics. Otherwise each visited index holds its value's rendering. |
| `Renderer.BuildDataRow` | representation/table.go:85-95 | A data row that does not panic has `columnIndex + 1` slots. |
| `Renderer.DataRowAsExpected` | representation/table.go:85-95 | In any iteration order, a data row panics exactly when the mapper panics on one of its values. Otherwise slot 0 is the row key, a slot with a value is that value's rendering, and any other slot is unset. |
| `Renderer.FillBody` | representation/table.go:84-97 | Without a panic, there is one data row per visited row key. |
| `Renderer.BodyAsExpected` | representation/table.go:84-97 | The data rows panic exactly when the mapper panics on a value of a listed row. Otherwise the j-th data row is the expected row of the j-th key. |
| `Renderer.BuildTable` | representation/table.go:65-97 | Without a panic, both header rows have `columnIndex + 1` slots, and there is one data row per visited row key. |
| `Renderer.TablePanics` | representation/table.go:84-97 | Building the table panics, in any iteration order, exactly when the mapper panics on some stored value. |
| `Renderer.TableContents` | representation/table.go:68-97 | Building the table panics exactly when the mapper panics on a stored value. Otherwise, with distinct indices, the header names every directory entry at its index with other slots as made, and each data row is its key's expected row. |
| `Renderer.TableRows` | representation/table.go:84-97 | Without a panic, the data rows are exactly the expected rows of the grid's row keys. |
| `Renderer.TableShowsStoredValues` | representation/table.go:84-97 | A table that does not panic shows every stored value. The value at index `i` of a row key is rendered into slot `i` of a full-width data row that starts with that key. |
| `Renderer.TableOrderIndependent` | representation/table.go:73-97 | With distinct indices, two schedules (iteration orders of lines 73-74, 84 and 87) panic in the same cases. Otherwise they give the same header rows and the same set of data rows. |
| `Representation.Failure.Message` | representation/table.go:61-63 | A read error's text is passed through. The empty-result error's text starts with `no rows returned for prefix: `, and the prefix can be read back from it. |
| `Representation.WriteTable` | representation/table.go:24-101 | A table is produced only after a successful read, with a non-negative limit and at least one delivered cell. The read error is returned unchanged exactly when the read failed and either the limit is a valid slice bound or no cell arrived. The empty-result error is returned exactly when the read succeeded and no cell arrived, at any limit, and it names the requested prefix. A negative limit with any cell panics. |
| `Representation.NoRowsExactlyWhenNoCells` | representation/table.go:61-63 | After a successful read, at any limit (negative ones included), the empty-result error is returned exactly when no cell was delivered. |
| `Representation.PanicsExactlyWhenMapperPanics` | representation/table.go:84-97 | After a successful read with cells and a non-negative limit, the run panics exactly when the mapper panics on a stored value, and fails in no other way. |
| `Representation.WriteTableContents` | representation/table.go:33-97 | On latest-version rows, a successful run has header rows with one slot per delivered cell plus the key slot, and names every directory entry at its index. Each entry names the column of the delivered cell stored at that index. Its grid keys are the row keys the cells carry, and its data rows are exactly those keys' expected rows. |
| `Representation.WriteTableShowsEveryValue` | representation/table.go:37-97 | On latest-version rows, a successful run shows every delivered value. The k-th delivered cell, cut to the limit and rendered, fills slot k + 1 of a data row that starts with its row key and has one slot per delivered cell plus the key slot. |
| `Representation.WriteTableValuesUnderTheirHeader` | representation/table.go:41-97 | On latest-version rows, a successful run puts each value under the header of its own column. For every directory entry (family, column) with index i, header slot i names the family and the short column name. Slot i of a data row starting with the cell's row key holds the rendered value of the i-th delivered cell, which is a cell of that column. |
| `Representation.WriteTableOrderIndependent` | representation/table.go:24-101 | On latest-version rows, the outcome does not depend on the iteration orders of lines 73-74, 84 and 87. Any failure is the same failure. Any two tables have the same header rows and the same set of data rows. The family order of line 38 is an input here and is not varied. |
| `Vcbt.ReferenceMapper` | main.go:44-51 | The mapper panics exactly on a non-nil empty value. A mapped value is shown only as `<deleted>` or `<pending>`, and an unmapped one comes with the empty string. |
| `Vcbt.ReferenceRendering` | main.go:44-51 | Under the reference mapper, a nil value shows as `<deleted>` and a non-empty value starting with zero shows as `<pending>`. Any other non-empty value shows as its bytes. A non-nil empty value panics. |
| `Vcbt.PendingWhateverFollows` | main.go:47-48 | A value with a leading zero byte shows as `<pending>`, whatever bytes follow. |
| `Vcbt.DefaultLimitKeepsValues` | main.go:29 | Under the default limit `math.MaxInt`, every value a Go slice can hold is stored unchanged. |
| `Vcbt.DefaultRunSucceeds` | main.go:43-52 | With the default limit and the reference mapper, a successful read with cells produces a table when no value is a non-nil empty slice. |
| `Vcbt.ZeroLimitPanics` | main.go:43-52 | With `-max-cell-size 0` and the reference mapper, a successful read of non-nil values panics instead of producing a table. |
| `Vcbt.GuardedMapper` | main.go:44-51 | The length-guarded mapper never panics. It agrees with the reference mapper wherever that returns, and leaves a non-nil empty value unmapped. |
| `Vcbt.GuardedRunSucceeds` | main.go:43-52 | With the guarded mapper, a successful read with cells produces a table under every valid limit, zero included. |

## Left out

- The Bigtable client is not modelled: the connection, `ReadRows`, `PrefixRange`, `LatestNFilter` and `LimitRows`, so the `limitRows` parameter is not modelled either. The model's input is the rows delivered to the callback and the error returned. The latest-version filter appears only as the `LatestVersionOnly` hypothesis.
- The iteration orders of lines 73-74, 84 and 87 are a `Schedule` parameter. No result states an order of the data rows, which Go does not fix.
- Collector.VisitFamilies: the family order of line 38 is the order of `Row.families`, a fixed input rather than an arbitrary Go map order. Column positions depend on it (`Collector.FamilyOrderDecidesIndices`), so no result claims independence from it.
- The table writer (go-pretty) is not modelled: `NewWriter`, `SetOutputMirror`, `AppendHeader` with `AutoMerge`, `AppendRow`, `AppendSeparator` and `Render`. The model's result is the three parts handed to the writer: the family row (`AppendHeader`), the column-name row (`AppendRow`, followed by `AppendSeparator`), and the data rows.
- `string(data)` is kept as the raw bytes (`Slot.Raw`). UTF-8 decoding and terminal layout are not modelled.
- `columnIndex` is an unbounded integer. Overflowing Go's `int` would need more than 2^63 cells, so it is not modelled.
- The context and the `io.Writer` are not modelled: they have no effect on the result.
- From main.go, only the default of `-max-cell-size` and the mapper are modelled. Left out:
  - the other flags and their defaults;
  - the empty-table-name check;
  - client creation;
  - `log.Fatal` and the process exit code.
- The model does not claim that a column keeps its index across rows, because the per-row directory reset rules that out (`Collector.IndexNotStableAcrossRows`).
- Vcbt.ZeroLimitPanics: assumes every delivered value is non-nil, although one stored non-nil value is enough for the code to panic. The lemma exhibits the failure and does not characterise it exactly.

## Findings

| source | as written | input that shows it | evidently intended | confidence | as-written member | corrected member |
|---|---|---|---|---|---|---|
| main.go:47 | The mapper reads `data[0]` of every non-nil value, with no length check | `-max-cell-size 0` and any row with a non-nil value: `cell.Value[:0]` is a non-nil empty slice, and `data[0]` panics | An empty value is neither deleted nor pending and is shown as empty text | medium, not executed | `Vcbt.ZeroLimitPanics` | `Vcbt.GuardedMapper` |

=== FILE: bigtable.dfy ===
/**
  What the data-store client hands to the read callback of `WriteTable`: rows,
  each holding, per column family, the latest version of every cell. The
  client itself (network reads, filters, row limit) is not part of the model;
  its output is the input of the collector.
*/
module Bigtable {
  import opened Go

  /** A `bigtable.ReadItem`; the timestamp and labels are not read by the core. */
  datatype Cell = Cell(row: string, column: string, value: Bytes)

  /** One entry of a `bigtable.Row`, which maps a family name to that family's cells. */
  datatype FamilyCells = FamilyCells(family: string, cells: seq<Cell>)

  /**
    A `bigtable.Row`. The core never reads `key`: it files every value under
    the row key its cell carries (`Cell.row`).
  */
  datatype Row = Row(key: string, families: seq<FamilyCells>)

  /** The rows delivered to the callback, followed by the error `ReadRows` returned, if any. */
  datatype Fetch = Fetch(rows: seq<Row>, err: Option<string>)

  /** Number of cells in a row's families. */
  function FamilyCellCount(families: seq<FamilyCells>): nat
    decreases |families|
  {
    if families == [] then 0 else |families[0].cells| + FamilyCellCount(families[1..])
  }

  /** Number of cells in all rows. */
  function CellCount(rows: seq<Row>): nat
    decreases |rows|
  {
    if rows == [] then 0 else FamilyCellCount(rows[0].families) + CellCount(rows[1..])
  }

  /** Row keys the cells of a family list carry. */
  function FamilyRowKeys(families: seq<FamilyCells>): set<string>
    decreases |families|
  {
    if families == [] then {} else (set c | c in families[0].cells :: c.row) + FamilyRowKeys(families[1..])
  }

  /** Row keys carried by at least one cell of the delivered rows. */
  function CellRowKeys(rows: seq<Row>): set<string>
    decreases |rows|
  {
    if rows == [] then {} else FamilyRowKeys(rows[0].families) + CellRowKeys(rows[1..])
  }

  /** The cells of a family list, in the order they are visited. */
  function FamilyCellList(families: seq<FamilyCells>): (cells: seq<Cell>)
    ensures |cells| == FamilyCellCount(families)
    decreases |families|
  {
    if families == [] then [] else families[0].cells + FamilyCellList(families[1..])
  }

  /** Every delivered cell, in the order the callback visits them. */
  function DeliveredCells(rows: seq<Row>): (cells: seq<Cell>)
    ensures |cells| == CellCount(rows)
    decreases |rows|
  {
    if rows == [] then [] else FamilyCellList(rows[0].families) + DeliveredCells(rows[1..])
  }

  /** The column names of a family's cells. */
  function ColumnNames(cells: seq<Cell>): set<string> {
    set c | c in cells :: c.column
  }

  /** The family names of a row. */
  function FamilyNames(families: seq<FamilyCells>): set<string> {
    set f | f in families :: f.family
  }

  /** The family names of a non-empty list, split at its first family. */
  lemma FamilyNamesCons(families: seq<FamilyCells>)
    requires families != []
    ensures FamilyNames(families) == {families[0].family} + FamilyNames(families[1..])
  {
    assert families == [families[0]] + families[1..];
  }

  /** No column name occurs twice in a family's cell list. */
  ghost predicate DistinctColumns(cells: seq<Cell>) {
    forall i, j | 0 <= i < j < |cells| :: cells[i].column != cells[j].column
  }

  /** No family occurs twice in a row, which holds because a row is a Go map. */
  ghost predicate DistinctFamilies(families: seq<FamilyCells>) {
    forall i, j | 0 <= i < j < |families| :: families[i].family != families[j].family
  }

  /**
    The "latest version only" filter the read is issued with: every family of
    every row lists each column at most once.
  */
  ghost predicate LatestVersionOnly(rows: seq<Row>) {
    forall r, f | r in rows && f in r.families :: DistinctColumns(f.cells)
  }

  /** A family list carries a row key exactly when it has a cell. */
  lemma {:induction false} FamilyRowKeysEmpty(families: seq<FamilyCells>)
    ensures FamilyRowKeys(families) == {} <==> FamilyCellCount(families) == 0
    decreases |families|
  {
    if families != [] {
      FamilyRowKeysEmpty(families[1..]);
      if families[0].cells != [] {
        assert families[0].cells[0].row in FamilyRowKeys(families);
      }
    }
  }

  /** The delivered rows carry some row key exactly when they hold a cell. */
  lemma {:induction false} CellRowKeysEmpty(rows: seq<Row>)
    ensures CellRowKeys(rows) == {} <==> CellCount(rows) == 0
    decreases |rows|
  {
    if rows != [] {
      FamilyRowKeysEmpty(rows[0].families);
      CellRowKeysEmpty(rows[1..]);
    }
  }

  /** A cell is listed exactly when one of the families holds it. */
  lemma {:induction false} FamilyCellListMembers(families: seq<FamilyCells>)
    ensures forall c :: c in FamilyCellList(families) <==> exists f | f in families :: c in f.cells
    decreases |families|
  {
    if families != [] {
      FamilyCellListMembers(families[1..]);
      forall c | c in FamilyCellList(families) ensures exists f | f in families :: c in f.cells {
        if c !in families[0].cells {
          assert c in FamilyCellList(families[1..]);
          var f :| f in families[1..] && c in f.cells;
          assert f in families;
        }
      }
      forall c, f | f in families && c in f.cells ensures c in FamilyCellList(families) {
        if f != families[0] {
          assert f in families[1..];
        }
      }
    }
  }

  /** A cell is delivered exactly when some family of some row holds it. */
  lemma {:induction false} DeliveredCellsMembers(rows: seq<Row>)
    ensures forall c :: c in DeliveredCells(rows) <==> exists r, f | r in rows && f in r.families :: c in f.cells
    decreases |rows|
  {
    if rows != [] {
      FamilyCellListMembers(rows[0].families);
      DeliveredCellsMembers(rows[1..]);
      forall c | c in DeliveredCells(rows) ensures exists r, f | r in rows && f in r.families :: c in f.cells {
        if c !in FamilyCellList(rows[0].families) {
          assert c in DeliveredCells(rows[1..]);
          var r, f :| r in rows[1..] && f in r.families && c in f.cells;
          assert r in rows;
        }
      }
      forall c, r, f | r in rows && f in r.families && c in f.cells ensures c in DeliveredCells(rows) {
        if r != rows[0] {
          assert r in rows[1..];
        }
      }
    }
  }
}

=== FILE: collector.dfy ===
/**
  The collection pass of `WriteTable` (representation/table.go, lines 33-56):
  a fold over the delivered rows that allocates a column index per cell and
  records each cell's (possibly truncated) value under (row key, index).

  The family directory `columns[family]` is replaced by an empty map each
  time a row mentions the family (line 39), so an index is allocated for
  every cell, and a column seen again in a later row gets a new index.
*/
module Collector {
  import opened Go
  import opened Bigtable

  /**
    The fold state: `columns` maps family to column name to index, `rows`
    maps row key to index to stored value, `columnIndex` is the last index
    handed out.
  */
  datatype State = State(
    columns: map<string, map<string, nat>>,
    rows: map<string, map<nat, Bytes>>,
    columnIndex: nat)

  /** The state before the first row (lines 33-35). */
  const Initial: State := State(map[], map[], 0)

  /** Every index in the directory and in the grid lies in `[1, columnIndex]`. */
  ghost predicate Bounded(s: State) {
    && (forall f, c | f in s.columns && c in s.columns[f] :: 1 <= s.columns[f][c] <= s.columnIndex)
    && (forall k, i | k in s.rows && i in s.rows[k] :: 1 <= i <= s.columnIndex)
  }

  /** Every row key of the grid holds at least one stored value. */
  ghost predicate NoEmptyRows(s: State) {
    forall k | k in s.rows :: s.rows[k] != map[]
  }

  /** No two (family, column) entries of the directory share an index. */
  ghost predicate Injective(columns: map<string, map<string, nat>>) {
    forall f, c, g, d |
      && f in columns && c in columns[f]
      && g in columns && d in columns[g]
      && columns[f][c] == columns[g][d]
      :: f == g && c == d
  }

  /** `P` holds of every value stored in the grid. */
  ghost predicate StoredValues(s: State, P: Bytes -> bool) {
    forall k, i | k in s.rows && i in s.rows[k] :: P(s.rows[k][i])
  }

  /**
    The value stored for a cell (lines 48-52): the first `limit` bytes when
    the value is longer than `limit`, the value itself otherwise. A nil value
    has length 0 and so stays nil; a cut value is a non-nil slice.
  */
  function Truncate(v: Bytes, limit: nat): (r: Bytes)
    ensures r.Nil? <==> v.Nil?
    ensures r.Contents() <= v.Contents()
    ensures r.Len() == if v.Len() <= limit then v.Len() else limit
  {
    if v.Len() > limit then Slice(v.data[..limit]) else v
  }

  /** A value that fits the limit is stored unchanged. */
  lemma TruncateKeepsShortValues(v: Bytes, limit: nat)
    requires v.Len() <= limit
    ensures Truncate(v, limit) == v
  {
    if v.Slice? {
      assert Truncate(v, limit).data == v.data;
    }
  }

  /**
    `columns[family][column] = index` (line 44): the entry is set, every
    other entry keeps its index, and every other family's directory stays as
    it was, so no column is added anywhere else.
  */
  function Enter(columns: map<string, map<string, nat>>, family: string, column: string, index: nat)
    : (r: map<string, map<string, nat>>)
    requires family in columns
    ensures r.Keys == columns.Keys
    ensures r[family].Keys == columns[family].Keys + {column}
    ensures r[family][column] == index
    ensures forall f, c | f in columns && c in columns[f] && (f != family || c != column) ::
      c in r[f] && r[f][c] == columns[f][c]
    ensures forall f | f in columns && f != family :: r[f] == columns[f]
  {
    var directory: map<string, nat> := columns[family][column := index];
    columns[family := directory]
  }

  /**
    `rows[key][index] = value` (lines 45-52), the row's map made first when
    the key is new: the value is stored, every other stored value stays, and
    nothing else is added.
  */
  function Store(rows: map<string, map<nat, Bytes>>, key: string, index: nat, value: Bytes)
    : (r: map<string, map<nat, Bytes>>)
    ensures r.Keys == rows.Keys + {key}
    ensures index in r[key] && r[key][index] == value
    ensures forall k, i | k in rows && i in rows[k] && (k != key || i != index) :: i in r[k] && r[k][i] == rows[k][i]
    ensures forall k, i | k in r && i in r[k] :: (k == key && i == index) || (k in rows && i in rows[k])
  {
    var stored := if key in rows then rows[key] else map[];
    rows[key := stored[index := value]]
  }

  /**
    One cell of one family (lines 41-52): a column not yet in the family's
    directory allocates the next index; the directory entry is then set to
    the current index and the truncated value is stored under it. Every other
    directory entry keeps its index and every other stored value stays where
    it was; `VisitCellAddsNothingElse` adds that nothing new appears elsewhere.
  */
  function VisitCell(s: State, family: string, cell: Cell, limit: nat): (r: State)
    requires family in s.columns
    ensures cell.column !in s.columns[family] <==> r.columnIndex == s.columnIndex + 1
    ensures cell.column in s.columns[family] <==> r.columnIndex == s.columnIndex
    ensures family in r.columns && cell.column in r.columns[family]
    ensures r.columns[family][cell.column] == r.columnIndex
    ensures cell.row in r.rows && r.columnIndex in r.rows[cell.row]
    ensures r.rows[cell.row][r.columnIndex] == Truncate(cell.value, limit)
    ensures r.columns.Keys == s.columns.Keys
    ensures r.columns[family].Keys == s.columns[family].Keys + {cell.column}
    ensures forall f, c | f in s.columns && c in s.columns[f] && (f != family || c != cell.column) ::
      c in r.columns[f] && r.columns[f][c] == s.columns[f][c]
    ensures r.rows.Keys == s.rows.Keys + {cell.row}
    ensures forall k, i | k in s.rows && i in s.rows[k] && (k != cell.row || i != r.columnIndex) ::
      i in r.rows[k] && r.rows[k][i] == s.rows[k][i]
    ensures Bounded(s) ==> Bounded(r)
    ensures NoEmptyRows(s) ==> NoEmptyRows(r)
  {
    var index := if cell.column in s.columns[family] then s.columnIndex else s.columnIndex + 1;
    State(
      Enter(s.columns, family, cell.column, index),
      Store(s.rows, cell.row, index, Truncate(cell.value, limit)),
      index)
  }

  /**
    Nothing else is added by one cell (lines 41-52): another family's
    directory is left exactly as it was, and the only stored value that may
    be new is the one at the cell's row key and the current index.
  */
  lemma VisitCellAddsNothingElse(s: State, family: string, cell: Cell, limit: nat)
    requires family in s.columns
    ensures var r := VisitCell(s, family, cell, limit);
      && (forall f | f in s.columns && f != family :: r.columns[f] == s.columns[f])
      && (forall k, i | k in r.rows && i in r.rows[k] ::
            (k == cell.row && i == r.columnIndex) || (k in s.rows && i in s.rows[k]))
  {
  }

  /** The cells of one family, in order (lines 40-53). */
  function VisitCells(s: State, family: string, cells: seq<Cell>, limit: nat): (r: State)
    requires family in s.columns
    ensures r.columns.Keys == s.columns.Keys
    ensures s.columnIndex <= r.columnIndex
    ensures Bounded(s) ==> Bounded(r)
    ensures NoEmptyRows(s) ==> NoEmptyRows(r)
    decreases |cells|
  {
    if cells == [] then s
    else VisitCells(VisitCell(s, family, cells[0], limit), family, cells[1..], limit)
  }

  /** One family of one row (lines 38-53): its directory is first replaced by an empty map. */
  function VisitFamily(s: State, items: FamilyCells, limit: nat): (r: State)
    ensures r.columns.Keys == s.columns.Keys + {items.family}
    ensures s.columnIndex <= r.columnIndex
    ensures Bounded(s) ==> Bounded(r)
    ensures NoEmptyRows(s) ==> NoEmptyRows(r)
  {
    VisitCells(s.(columns := s.columns[items.family := map[]]), items.family, items.cells, limit)
  }

  /**
    The families of one row (line 38), in the order of `families`: the input
    fixes the order Go happens to iterate the row's map in.
  */
  function VisitFamilies(s: State, families: seq<FamilyCells>, limit: nat): (r: State)
    ensures r.columns.Keys == s.columns.Keys + FamilyNames(families)
    ensures s.columnIndex <= r.columnIndex
    ensures Bounded(s) ==> Bounded(r)
    ensures NoEmptyRows(s) ==> NoEmptyRows(r)
    decreases |families|
  {
    if families == [] then s
    else
      FamilyNamesCons(families);
      VisitFamilies(VisitFamily(s, families[0], limit), families[1..], limit)
  }

  /** The body of the read callback for one row (lines 37-56). */
  function VisitRow(s: State, row: Row, limit: nat): State {
    VisitFamilies(s, row.families, limit)
  }

  /** The callback applied to each delivered row in turn. */
  function CollectFrom(s: State, rows: seq<Row>, limit: nat): (r: State)
    ensures s.columnIndex <= r.columnIndex
    ensures s.columns.Keys <= r.columns.Keys
    ensures Bounded(s) ==> Bounded(r)
    ensures NoEmptyRows(s) ==> NoEmptyRows(r)
    decreases |rows|
  {
    if rows == [] then s
    else CollectFrom(VisitRow(s, rows[0], limit), rows[1..], limit)
  }

  /** The whole collection pass, from empty maps and a zero counter. */
  function Collect(rows: seq<Row>, limit: nat): (r: State)
    ensures Bounded(r) && NoEmptyRows(r)
  {
    CollectFrom(Initial, rows, limit)
  }

  // ---------------------------------------------------------------------------
  // The directory after a row (lines 38-39, 44)
  // ---------------------------------------------------------------------------

  /** A family's cells add exactly their column names to its directory and leave other families alone. */
  lemma {:induction false} VisitCellsDirectory(s: State, family: string, cells: seq<Cell>, limit: nat)
    requires family in s.columns
    ensures var r := VisitCells(s, family, cells, limit);
      && r.columns[family].Keys == s.columns[family].Keys + ColumnNames(cells)
      && (forall f | f in s.columns && f != family :: r.columns[f] == s.columns[f])
    decreases |cells|
  {
    if cells != [] {
      var s1 := VisitCell(s, family, cells[0], limit);
      assert s1.columns == s.columns[family := s.columns[family][cells[0].column := s1.columnIndex]];
      assert s1.columns[family].Keys == s.columns[family].Keys + {cells[0].column};
      assert forall f | f in s.columns && f != family :: s1.columns[f] == s.columns[f];
      VisitCellsDirectory(s1, family, cells[1..], limit);
      ColumnNamesCons(cells);
    }
  }

  /** The column names and row keys of a cell list, split at its first cell. */
  lemma ColumnNamesCons(cells: seq<Cell>)
    requires cells != []
    ensures ColumnNames(cells) == {cells[0].column} + ColumnNames(cells[1..])
    ensures (set c | c in cells :: c.row) == {cells[0].row} + (set c | c in cells[1..] :: c.row)
  {
    assert cells == [cells[0]] + cells[1..];
  }

  /** Visiting one family leaves that family with exactly its cells' column names. */
  lemma VisitFamilyDirectory(s: State, items: FamilyCells, limit: nat)
    ensures var r := VisitFamily(s, items, limit);
      && r.columns[items.family].Keys == ColumnNames(items.cells)
      && (forall f | f in s.columns && f != items.family :: r.columns[f] == s.columns[f])
  {
    VisitCellsDirectory(s.(columns := s.columns[items.family := map[]]), items.family, items.cells, limit);
  }

  /**
    After the families of a row are visited, each family of the row has
    exactly that row's column names as directory keys, and every other family
    keeps its previous directory.
  */
  lemma {:induction false} VisitFamiliesDirectory(s: State, families: seq<FamilyCells>, limit: nat)
    requires DistinctFamilies(families)
    ensures var r := VisitFamilies(s, families, limit);
      && (forall j | 0 <= j < |families| :: r.columns[families[j].family].Keys == ColumnNames(families[j].cells))
      && (forall f | f in s.columns && f !in FamilyNames(families) :: r.columns[f] == s.columns[f])
    decreases |families|
  {
    if families != [] {
      var head, tail := families[0], families[1..];
      var s1 := VisitFamily(s, head, limit);
      VisitFamilyDirectory(s, head, limit);
      FamiliesCons(families);
      VisitFamiliesDirectory(s1, tail, limit);
      forall j | 0 <= j < |families|
        ensures VisitFamilies(s1, tail, limit).columns[families[j].family].Keys == ColumnNames(families[j].cells)
      {
        if j > 0 {
          assert tail[j - 1] == families[j];
        }
      }
    }
  }

  /** How the family names of a list split into its first family and the rest. */
  lemma FamiliesCons(families: seq<FamilyCells>)
    requires families != [] && DistinctFamilies(families)
    ensures FamilyNames(families) == {families[0].family} + FamilyNames(families[1..])
    ensures families[0].family !in FamilyNames(families[1..])
    ensures DistinctFamilies(families[1..])
  {
    var head, tail := families[0], families[1..];
    assert families == [head] + tail;
    forall i, j | 0 <= i < j < |tail| ensures tail[i].family != tail[j].family {
      assert tail[i] == families[i + 1] && tail[j] == families[j + 1];
    }
    forall f | f in tail ensures f.family != head.family {
      var j :| 0 <= j < |tail| && tail[j] == f;
      assert families[j + 1] == f;
    }
  }

  /** The directory after one row, as the source's per-row reset leaves it. */
  lemma VisitRowDirectory(s: State, row: Row, limit: nat)
    requires DistinctFamilies(row.families)
    ensures var r := VisitRow(s, row, limit);
      && r.columns.Keys == s.columns.Keys + FamilyNames(row.families)
      && (forall j | 0 <= j < |row.families| ::
            r.columns[row.families[j].family].Keys == ColumnNames(row.families[j].cells))
      && (forall f | f in s.columns && f !in FamilyNames(row.families) :: r.columns[f] == s.columns[f])
  {
    VisitFamiliesDirectory(s, row.families, limit);
  }

  // ---------------------------------------------------------------------------
  // Index allocation (lines 41-44)
  // ---------------------------------------------------------------------------

  /**
    When none of a family's columns is in its directory yet and the column
    names are distinct, every cell allocates a fresh index above all earlier
    ones, so the directory stays injective.
  */
  lemma {:induction false} VisitCellsAllocatesFresh(s: State, family: string, cells: seq<Cell>, limit: nat)
    requires family in s.columns && Bounded(s) && Injective(s.columns)
    requires DistinctColumns(cells)
    requires forall i | 0 <= i < |cells| :: cells[i].column !in s.columns[family]
    ensures var r := VisitCells(s, family, cells, limit);
      Injective(r.columns) && r.columnIndex == s.columnIndex + |cells|
    decreases |cells|
  {
    if cells != [] {
      var s1 := VisitCell(s, family, cells[0], limit);
      assert Injective(s1.columns) by {
        forall f, c, g, d |
          && f in s1.columns && c in s1.columns[f]
          && g in s1.columns && d in s1.columns[g]
          && s1.columns[f][c] == s1.columns[g][d]
          ensures f == g && c == d
        {
          if (f, c) != (family, cells[0].column) {
            assert s1.columns[f][c] == s.columns[f][c] <= s.columnIndex;
          }
          if (g, d) != (family, cells[0].column) {
            assert s1.columns[g][d] == s.columns[g][d] <= s.columnIndex;
          }
        }
      }
      forall i | 0 <= i < |cells[1..]| ensures cells[1..][i].column !in s1.columns[family] {
        assert cells[1..][i] == cells[i + 1];
      }
      VisitCellsAllocatesFresh(s1, family, cells[1..], limit);
    }
  }

  /** Dropping a family's directory keeps the state bounded and injective. */
  lemma ResetKeepsInvariants(s: State, family: string)
    requires Bounded(s) && Injective(s.columns)
    ensures var reset := s.(columns := s.columns[family := map[]]);
      Bounded(reset) && Injective(reset.columns)
  {
    var reset := s.(columns := s.columns[family := map[]]);
    assert forall f, c | f in reset.columns && c in reset.columns[f] ::
      f != family && reset.columns[f][c] == s.columns[f][c];
  }

  /** Visiting families whose column lists are duplicate-free allocates one index per cell. */
  lemma {:induction false} VisitFamiliesAllocatesFresh(s: State, families: seq<FamilyCells>, limit: nat)
    requires Bounded(s) && Injective(s.columns)
    requires forall j | 0 <= j < |families| :: DistinctColumns(families[j].cells)
    ensures var r := VisitFamilies(s, families, limit);
      Injective(r.columns) && r.columnIndex == s.columnIndex + FamilyCellCount(families)
    decreases |families|
  {
    if families != [] {
      var head := families[0];
      ResetKeepsInvariants(s, head.family);
      VisitCellsAllocatesFresh(s.(columns := s.columns[head.family := map[]]), head.family, head.cells, limit);
      var s1 := VisitFamily(s, head, limit);
      forall j | 0 <= j < |families[1..]| ensures DistinctColumns(families[1..][j].cells) {
        assert families[1..][j] == families[j + 1];
      }
      VisitFamiliesAllocatesFresh(s1, families[1..], limit);
    }
  }

  /** The fold from any bounded, injective state, over rows delivered with one version per cell. */
  lemma {:induction false} CollectFromAllocatesFresh(s: State, rows: seq<Row>, limit: nat)
    requires Bounded(s) && Injective(s.columns)
    requires LatestVersionOnly(rows)
    ensures var r := CollectFrom(s, rows, limit);
      Injective(r.columns) && r.columnIndex == s.columnIndex + CellCount(rows)
    decreases |rows|
  {
    if rows != [] {
      forall j | 0 <= j < |rows[0].families| ensures DistinctColumns(rows[0].families[j].cells) {
        assert rows[0].families[j] in rows[0].families;
      }
      VisitFamiliesAllocatesFresh(s, rows[0].families, limit);
      assert LatestVersionOnly(rows[1..]) by {
        forall r, f | r in rows[1..] && f in r.families ensures DistinctColumns(f.cells) {
          assert r in rows;
        }
      }
      CollectFromAllocatesFresh(VisitRow(s, rows[0], limit), rows[1..], limit);
    }
  }

  /**
    With at most one cell per column in each family, no two directory entries
    share an index, so filling the header does not depend on the order the
    directory is iterated in.
  */
  lemma CollectInjective(rows: seq<Row>, limit: nat)
    requires LatestVersionOnly(rows)
    ensures Injective(Collect(rows, limit).columns)
  {
    CollectFromAllocatesFresh(Initial, rows, limit);
  }

  /**
    With at most one cell per column in each family, the counter ends at the
    number of cells: every cell allocates an index, because the per-row reset
    forgets the columns earlier rows saw.
  */
  lemma CollectCountsCells(rows: seq<Row>, limit: nat)
    requires LatestVersionOnly(rows)
    ensures Collect(rows, limit).columnIndex == CellCount(rows)
  {
    CollectFromAllocatesFresh(Initial, rows, limit);
  }

  // ---------------------------------------------------------------------------
  // The grid (lines 45-52)
  // ---------------------------------------------------------------------------

  /** A family's cells add exactly the row keys they carry to the grid. */
  lemma {:induction false} VisitCellsRowKeys(s: State, family: string, cells: seq<Cell>, limit: nat)
    requires family in s.columns
    ensures VisitCells(s, family, cells, limit).rows.Keys == s.rows.Keys + (set c | c in cells :: c.row)
    decreases |cells|
  {
    if cells != [] {
      VisitCellsRowKeys(VisitCell(s, family, cells[0], limit), family, cells[1..], limit);
      ColumnNamesCons(cells);
    }
  }

  lemma {:induction false} VisitFamiliesRowKeys(s: State, families: seq<FamilyCells>, limit: nat)
    ensures VisitFamilies(s, families, limit).rows.Keys == s.rows.Keys + FamilyRowKeys(families)
    decreases |families|
  {
    if families != [] {
      var head := families[0];
      VisitCellsRowKeys(s.(columns := s.columns[head.family := map[]]), head.family, head.cells, limit);
      VisitFamiliesRowKeys(VisitFamily(s, head, limit), families[1..], limit);
    }
  }

  lemma {:induction false} CollectFromRowKeys(s: State, rows: seq<Row>, limit: nat)
    ensures CollectFrom(s, rows, limit).rows.Keys == s.rows.Keys + CellRowKeys(rows)
    decreases |rows|
  {
    if rows != [] {
      VisitFamiliesRowKeys(s, rows[0].families, limit);
      CollectFromRowKeys(VisitRow(s, rows[0], limit), rows[1..], limit);
    }
  }

  /**
    A row key enters the grid exactly when a cell carrying it is processed;
    in particular the grid is empty exactly when no cell was delivered.
  */
  lemma CollectRowKeys(rows: seq<Row>, limit: nat)
    ensures Collect(rows, limit).rows.Keys == CellRowKeys(rows)
    ensures |Collect(rows, limit).rows| == 0 <==> CellCount(rows) == 0
  {
    CollectFromRowKeys(Initial, rows, limit);
    CellRowKeysEmpty(rows);
  }

  /** A property of every truncated cell value is a property of every stored value. */
  lemma {:induction false} VisitCellsStores(s: State, family: string, cells: seq<Cell>, limit: nat, P: Bytes -> bool)
    requires family in s.columns && StoredValues(s, P)
    requires forall c | c in cells :: P(Truncate(c.value, limit))
    ensures StoredValues(VisitCells(s, family, cells, limit), P)
    decreases |cells|
  {
    if cells != [] {
      var s1 := VisitCell(s, family, cells[0], limit);
      assert StoredValues(s1, P);
      VisitCellsStores(s1, family, cells[1..], limit, P);
    }
  }

  lemma {:induction false} VisitFamiliesStores(s: State, families: seq<FamilyCells>, limit: nat, P: Bytes -> bool)
    requires StoredValues(s, P)
    requires forall f, c | f in families && c in f.cells :: P(Truncate(c.value, limit))
    ensures StoredValues(VisitFamilies(s, families, limit), P)
    decreases |families|
  {
    if families != [] {
      var head := families[0];
      VisitCellsStores(s.(columns := s.columns[head.family := map[]]), head.family, head.cells, limit, P);
      VisitFamiliesStores(VisitFamily(s, head, limit), families[1..], limit, P);
    }
  }

  lemma {:induction false} CollectFromStores(s: State, rows: seq<Row>, limit: nat, P: Bytes -> bool)
    requires StoredValues(s, P)
    requires forall r, f, c | r in rows && f in r.families && c in f.cells :: P(Truncate(c.value, limit))
    ensures StoredValues(CollectFrom(s, rows, limit), P)
    decreases |rows|
  {
    if rows != [] {
      forall r, f, c | r in rows[1..] && f in r.families && c in f.cells
        ensures P(Truncate(c.value, limit))
      {
        assert r in rows;
      }
      forall f, c | f in rows[0].families && c in f.cells ensures P(Truncate(c.value, limit)) {
        assert rows[0] in rows;
      }
      VisitFamiliesStores(s, rows[0].families, limit, P);
      CollectFromStores(VisitRow(s, rows[0], limit), rows[1..], limit, P);
    }
  }

  /** Whatever holds of every truncated input value holds of every value in the grid. */
  lemma CollectStores(rows: seq<Row>, limit: nat, P: Bytes -> bool)
    requires forall r, f, c | r in rows && f in r.families && c in f.cells :: P(Truncate(c.value, limit))
    ensures StoredValues(Collect(rows, limit), P)
  {
    CollectFromStores(Initial, rows, limit, P);
  }

  /** No stored value is longer than the cell-size limit. */
  lemma CollectRespectsLimit(rows: seq<Row>, limit: nat)
    ensures forall k, i | k in Collect(rows, limit).rows && i in Collect(rows, limit).rows[k] ::
      Collect(rows, limit).rows[k][i].Len() <= limit
  {
    var fits := (v: Bytes) => v.Len() <= limit;
    forall r, f, c | r in rows && f in r.families && c in f.cells
      ensures fits(Truncate(c.value, limit))
    {
    }
    CollectStores(rows, limit, fits);
  }

  /**
    The grid holds exactly the cells of `delivered`: the k-th of them, cut to
    the limit, at index k + 1 under the row key it carries, and nothing else;
    the counter has handed out one index per cell.
  */
  ghost predicate GridOf(s: State, delivered: seq<Cell>, limit: nat) {
    && s.columnIndex == |delivered|
    && (forall k | 0 <= k < |delivered| ::
          && delivered[k].row in s.rows && k + 1 in s.rows[delivered[k].row]
          && s.rows[delivered[k].row][k + 1] == Truncate(delivered[k].value, limit))
    && (forall key, i | key in s.rows && i in s.rows[key] :: 1 <= i <= |delivered| && delivered[i - 1].row == key)
  }

  /** A cell whose column is new to its family's directory is stored at a fresh index and overwrites nothing. */
  lemma VisitCellGrid(s: State, family: string, delivered: seq<Cell>, cell: Cell, limit: nat)
    requires family in s.columns && cell.column !in s.columns[family]
    requires GridOf(s, delivered, limit)
    ensures GridOf(VisitCell(s, family, cell, limit), delivered + [cell], limit)
  {
    VisitCellKeeps(s, family, delivered, cell, limit);
    VisitCellAddsOne(s, family, delivered, cell, limit);
  }

  /** Every value stored before a fresh cell, and the cell's own value, is in the grid after it. */
  lemma VisitCellKeeps(s: State, family: string, delivered: seq<Cell>, cell: Cell, limit: nat)
    requires family in s.columns && cell.column !in s.columns[family]
    requires GridOf(s, delivered, limit)
    ensures var r, all := VisitCell(s, family, cell, limit), delivered + [cell];
      forall k | 0 <= k < |all| ::
        && all[k].row in r.rows && k + 1 in r.rows[all[k].row]
        && r.rows[all[k].row][k + 1] == Truncate(all[k].value, limit)
  {
    var r := VisitCell(s, family, cell, limit);
    var all := delivered + [cell];
    forall k | 0 <= k < |all|
      ensures && all[k].row in r.rows && k + 1 in r.rows[all[k].row]
              && r.rows[all[k].row][k + 1] == Truncate(all[k].value, limit)
    {
      if k < |delivered| {
        assert all[k] == delivered[k];
        KeepsStored(s, family, cell, limit, delivered[k].row, k + 1);
      } else {
        assert all[k] == cell;
      }
    }
  }

  /** A cell stored at a fresh index leaves a value stored at an earlier index in place. */
  lemma KeepsStored(s: State, family: string, cell: Cell, limit: nat, key: string, i: nat)
    requires family in s.columns && cell.column !in s.columns[family]
    requires key in s.rows && i in s.rows[key] && i <= s.columnIndex
    ensures var r := VisitCell(s, family, cell, limit);
      key in r.rows && i in r.rows[key] && r.rows[key][i] == s.rows[key][i]
  {
  }

  /** A fresh cell adds only its own entry to the grid. */
  lemma VisitCellAddsOne(s: State, family: string, delivered: seq<Cell>, cell: Cell, limit: nat)
    requires family in s.columns && cell.column !in s.columns[family]
    requires GridOf(s, delivered, limit)
    ensures var r := VisitCell(s, family, cell, limit);
      forall key, i | key in r.rows && i in r.rows[key] ::
        1 <= i <= |delivered + [cell]| && (delivered + [cell])[i - 1].row == key
  {
    var r := VisitCell(s, family, cell, limit);
    var all := delivered + [cell];
    var stored := if cell.row in s.rows then s.rows[cell.row] else map[];
    assert r.rows == s.rows[cell.row := stored[r.columnIndex := Truncate(cell.value, limit)]];
    forall key, i | key in r.rows && i in r.rows[key] ensures 1 <= i <= |all| && all[i - 1].row == key {
      if key != cell.row || i != r.columnIndex {
        assert key in s.rows && i in s.rows[key];
        assert all[i - 1] == delivered[i - 1];
      }
    }
  }

  /** A family's cells with distinct columns, none in its directory, are stored one after another. */
  lemma {:induction false} VisitCellsGrid(
    s: State, family: string, delivered: seq<Cell>, cells: seq<Cell>, limit: nat)
    requires family in s.columns && DistinctColumns(cells)
    requires forall i | 0 <= i < |cells| :: cells[i].column !in s.columns[family]
    requires GridOf(s, delivered, limit)
    ensures GridOf(VisitCells(s, family, cells, limit), delivered + cells, limit)
    decreases |cells|
  {
    if cells != [] {
      var s1 := VisitCell(s, family, cells[0], limit);
      var done := delivered + [cells[0]];
      assert GridOf(s1, done, limit) by {
        VisitCellGrid(s, family, delivered, cells[0], limit);
      }
      assert forall i | 0 <= i < |cells[1..]| :: cells[1..][i].column !in s1.columns[family] by {
        forall i | 0 <= i < |cells[1..]| ensures cells[1..][i].column !in s1.columns[family] {
          assert cells[1..][i] == cells[i + 1];
        }
      }
      assert done + cells[1..] == delivered + cells by {
        assert cells == [cells[0]] + cells[1..];
        AppendAssociative(delivered, [cells[0]], cells[1..]);
      }
      VisitCellsGrid(s1, family, done, cells[1..], limit);
    }
  }

  /** The families of a row, each free of repeated columns, store their cells in visiting order. */
  lemma {:induction false} VisitFamiliesGrid(s: State, delivered: seq<Cell>, families: seq<FamilyCells>, limit: nat)
    requires forall j | 0 <= j < |families| :: DistinctColumns(families[j].cells)
    requires GridOf(s, delivered, limit)
    ensures GridOf(VisitFamilies(s, families, limit), delivered + FamilyCellList(families), limit)
    decreases |families|
  {
    if families != [] {
      var head := families[0];
      var s1 := VisitFamily(s, head, limit);
      var done := delivered + head.cells;
      assert GridOf(s1, done, limit) by {
        VisitCellsGrid(s.(columns := s.columns[head.family := map[]]), head.family, delivered, head.cells, limit);
      }
      assert forall j | 0 <= j < |families[1..]| :: DistinctColumns(families[1..][j].cells) by {
        forall j | 0 <= j < |families[1..]| ensures DistinctColumns(families[1..][j].cells) {
          assert families[1..][j] == families[j + 1];
        }
      }
      assert done + FamilyCellList(families[1..]) == delivered + FamilyCellList(families) by {
        assert FamilyCellList(families) == head.cells + FamilyCellList(families[1..]);
        AppendAssociative(delivered, head.cells, FamilyCellList(families[1..]));
      }
      VisitFamiliesGrid(s1, done, families[1..], limit);
    }
  }

  /** The fold over latest-version rows stores their cells in delivery order. */
  lemma {:induction false} CollectFromGrid(s: State, delivered: seq<Cell>, rows: seq<Row>, limit: nat)
    requires LatestVersionOnly(rows)
    requires GridOf(s, delivered, limit)
    ensures GridOf(CollectFrom(s, rows, limit), delivered + DeliveredCells(rows), limit)
    decreases |rows|
  {
    if rows != [] {
      var s1, done := VisitRow(s, rows[0], limit), delivered + FamilyCellList(rows[0].families);
      VisitRowGrid(s, delivered, rows, limit);
      CollectFromGrid(s1, done, rows[1..], limit);
      assert CollectFrom(s, rows, limit) == CollectFrom(s1, rows[1..], limit);
      assert done + DeliveredCells(rows[1..]) == delivered + DeliveredCells(rows) by {
        var more, rest := FamilyCellList(rows[0].families), DeliveredCells(rows[1..]);
        assert DeliveredCells(rows) == more + rest;
        AppendAssociative(delivered, more, rest);
      }
    }
  }

  /** Concatenation regroups freely. */
  lemma AppendAssociative<T>(a: seq<T>, b: seq<T>, c: seq<T>)
    ensures (a + b) + c == a + (b + c)
  {
  }

  /**
    The first of a list of latest-version rows stores its cells in visiting
    order; the rest are latest-version rows.
  */
  lemma VisitRowGrid(s: State, delivered: seq<Cell>, rows: seq<Row>, limit: nat)
    requires rows != [] && LatestVersionOnly(rows)
    requires GridOf(s, delivered, limit)
    ensures GridOf(VisitRow(s, rows[0], limit), delivered + FamilyCellList(rows[0].families), limit)
    ensures LatestVersionOnly(rows[1..])
  {
    forall j | 0 <= j < |rows[0].families| ensures DistinctColumns(rows[0].families[j].cells) {
      assert rows[0].families[j] in rows[0].families;
    }
    VisitFamiliesGrid(s, delivered, rows[0].families, limit);
    forall r, f | r in rows[1..] && f in r.families ensures DistinctColumns(f.cells) {
      assert r in rows;
    }
  }

  /**
    Under the latest-version filter no delivered value is lost or overwritten:
    the k-th delivered cell, cut to the limit, is stored under the row key it
    carries at index k + 1, an index no other cell gets, and every stored
    value is one of these.
  */
  lemma CollectKeepsEveryValue(rows: seq<Row>, limit: nat)
    requires LatestVersionOnly(rows)
    ensures GridOf(Collect(rows, limit), DeliveredCells(rows), limit)
  {
    CollectFromGrid(Initial, [], rows, limit);
    assert [] + DeliveredCells(rows) == DeliveredCells(rows);
  }

  /**
    Every directory entry names the column of the cell whose value is stored
    at its index: the entry (family, column) with index i has `column` as the
    column of the i-th delivered cell.
  */
  ghost predicate NamesDelivered(s: State, delivered: seq<Cell>) {
    forall f, c | f in s.columns && c in s.columns[f] ::
      1 <= s.columns[f][c] <= |delivered| && delivered[s.columns[f][c] - 1].column == c
  }

  /** A cell whose column is new to its family's directory is named by the entry it makes. */
  lemma VisitCellNames(s: State, family: string, delivered: seq<Cell>, cell: Cell, limit: nat)
    requires family in s.columns && cell.column !in s.columns[family]
    requires s.columnIndex == |delivered| && NamesDelivered(s, delivered)
    ensures var r := VisitCell(s, family, cell, limit);
      r.columnIndex == |delivered + [cell]| && NamesDelivered(r, delivered + [cell])
  {
    var r := VisitCell(s, family, cell, limit);
    var all := delivered + [cell];
    forall f, c | f in r.columns && c in r.columns[f]
      ensures 1 <= r.columns[f][c] <= |all| && all[r.columns[f][c] - 1].column == c
    {
      NamedEntry(s, family, delivered, cell, limit, f, c);
    }
    assert NamesDelivered(r, all);
  }

  /** One entry of the directory after a fresh cell: the cell's own, or an earlier one still naming its cell. */
  lemma NamedEntry(s: State, family: string, delivered: seq<Cell>, cell: Cell, limit: nat, f: string, c: string)
    requires family in s.columns && cell.column !in s.columns[family]
    requires s.columnIndex == |delivered|
    requires f in s.columns && c in s.columns[f] ==>
      1 <= s.columns[f][c] <= |delivered| && delivered[s.columns[f][c] - 1].column == c
    ensures var r := VisitCell(s, family, cell, limit);
      f in r.columns && c in r.columns[f] ==>
        1 <= r.columns[f][c] <= |delivered + [cell]| && (delivered + [cell])[r.columns[f][c] - 1].column == c
  {
    var r := VisitCell(s, family, cell, limit);
    var all := delivered + [cell];
    if f in r.columns && c in r.columns[f] {
      if f != family || c != cell.column {
        KeepsEntry(s, family, cell, limit, f, c);
        assert all[s.columns[f][c] - 1] == delivered[s.columns[f][c] - 1];
      } else {
        assert all[|delivered|] == cell;
      }
    }
  }

  /** A directory entry after a cell other than the cell's own was there before, with the same index. */
  lemma KeepsEntry(s: State, family: string, cell: Cell, limit: nat, f: string, c: string)
    requires family in s.columns
    ensures var r := VisitCell(s, family, cell, limit);
      f in r.columns && c in r.columns[f] && (f != family || c != cell.column) ==>
        f in s.columns && c in s.columns[f] && r.columns[f][c] == s.columns[f][c]
  {
  }

  /** A family's cells with distinct columns, none in its directory, are each named by their own entry. */
  lemma {:induction false} VisitCellsNames(
    s: State, family: string, delivered: seq<Cell>, cells: seq<Cell>, limit: nat)
    requires family in s.columns && DistinctColumns(cells)
    requires forall i | 0 <= i < |cells| :: cells[i].column !in s.columns[family]
    requires s.columnIndex == |delivered| && NamesDelivered(s, delivered)
    ensures var r := VisitCells(s, family, cells, limit);
      r.columnIndex == |delivered + cells| && NamesDelivered(r, delivered + cells)
    decreases |cells|
  {
    if cells == [] {
      assert delivered + cells == delivered;
    } else {
      var s1 := VisitCell(s, family, cells[0], limit);
      VisitCellNames(s, family, delivered, cells[0], limit);
      forall i | 0 <= i < |cells[1..]| ensures cells[1..][i].column !in s1.columns[family] {
        assert cells[1..][i] == cells[i + 1];
      }
      assert (delivered + [cells[0]]) + cells[1..] == delivered + cells by {
        assert cells == [cells[0]] + cells[1..];
        AppendAssociative(delivered, [cells[0]], cells[1..]);
      }
      VisitCellsNames(s1, family, delivered + [cells[0]], cells[1..], limit);
    }
  }

  /** The families of a row, each free of repeated columns, name the cells they store. */
  lemma {:induction false} VisitFamiliesNames(s: State, delivered: seq<Cell>, families: seq<FamilyCells>, limit: nat)
    requires forall j | 0 <= j < |families| :: DistinctColumns(families[j].cells)
    requires s.columnIndex == |delivered| && NamesDelivered(s, delivered)
    ensures var r := VisitFamilies(s, families, limit);
      && r.columnIndex == |delivered + FamilyCellList(families)|
      && NamesDelivered(r, delivered + FamilyCellList(families))
    decreases |families|
  {
    if families == [] {
      assert delivered + FamilyCellList(families) == delivered;
    } else {
      var head := families[0];
      var reset := s.(columns := s.columns[head.family := map[]]);
      assert NamesDelivered(reset, delivered);
      VisitCellsNames(reset, head.family, delivered, head.cells, limit);
      var s1 := VisitFamily(s, head, limit);
      forall j | 0 <= j < |families[1..]| ensures DistinctColumns(families[1..][j].cells) {
        assert families[1..][j] == families[j + 1];
      }
      assert (delivered + head.cells) + FamilyCellList(families[1..]) == delivered + FamilyCellList(families) by {
        AppendAssociative(delivered, head.cells, FamilyCellList(families[1..]));
      }
      VisitFamiliesNames(s1, delivered + head.cells, families[1..], limit);
    }
  }

  /** The fold over latest-version rows keeps every directory entry naming the cell stored at its index. */
  lemma {:induction false} CollectFromNames(s: State, delivered: seq<Cell>, rows: seq<Row>, limit: nat)
    requires LatestVersionOnly(rows)
    requires s.columnIndex == |delivered| && NamesDelivered(s, delivered)
    ensures NamesDelivered(CollectFrom(s, rows, limit), delivered + DeliveredCells(rows))
    decreases |rows|
  {
    if rows == [] {
      assert delivered + DeliveredCells(rows) == delivered;
    } else {
      forall j | 0 <= j < |rows[0].families| ensures DistinctColumns(rows[0].families[j].cells) {
        assert rows[0].families[j] in rows[0].families;
      }
      VisitFamiliesNames(s, delivered, rows[0].families, limit);
      assert LatestVersionOnly(rows[1..]) by {
        forall r, f | r in rows[1..] && f in r.families ensures DistinctColumns(f.cells) {
          assert r in rows;
        }
      }
      var more := FamilyCellList(rows[0].families);
      CollectFromNames(VisitRow(s, rows[0], limit), delivered + more, rows[1..], limit);
      AppendAssociative(delivered, more, DeliveredCells(rows[1..]));
    }
  }

  /**
    Under the latest-version filter the directory and the grid agree: an
    entry (family, column) with index i names the column of the i-th
    delivered cell, whose value is the one stored at index i
    (`CollectKeepsEveryValue`).
  */
  lemma CollectNames(rows: seq<Row>, limit: nat)
    requires LatestVersionOnly(rows)
    ensures NamesDelivered(Collect(rows, limit), DeliveredCells(rows))
  {
    CollectFromNames(Initial, [], rows, limit);
    assert [] + DeliveredCells(rows) == DeliveredCells(rows);
  }

  // ---------------------------------------------------------------------------
  // Only the latest row's indices stay in the directory (lines 39, 44)
  // ---------------------------------------------------------------------------

  /** Every directory entry of the families in `touched` was handed out after the counter stood at `base`. */
  ghost predicate AllocatedSince(s: State, touched: set<string>, base: nat) {
    forall f, c | f in touched && f in s.columns && c in s.columns[f] :: base < s.columns[f][c] <= s.columnIndex
  }

  /** A cell keeps every touched family's entries recent, its own family included. */
  lemma VisitCellAllocatedSince(s: State, family: string, cell: Cell, limit: nat, touched: set<string>, base: nat)
    requires family in s.columns && family in touched
    requires base <= s.columnIndex && AllocatedSince(s, touched, base)
    ensures var r := VisitCell(s, family, cell, limit);
      base <= r.columnIndex && AllocatedSince(r, touched, base)
  {
    var r := VisitCell(s, family, cell, limit);
    forall f, c | f in touched && f in r.columns && c in r.columns[f]
      ensures base < r.columns[f][c] <= r.columnIndex
    {
      if f == family && c == cell.column {
        if cell.column in s.columns[family] {
          assert base < s.columns[family][cell.column] <= s.columnIndex;
        }
      } else {
        assert r.columns[f][c] == s.columns[f][c];
      }
    }
  }

  lemma {:induction false} VisitCellsAllocatedSince(
    s: State, family: string, cells: seq<Cell>, limit: nat, touched: set<string>, base: nat)
    requires family in s.columns && family in touched
    requires base <= s.columnIndex && AllocatedSince(s, touched, base)
    ensures var r := VisitCells(s, family, cells, limit);
      base <= r.columnIndex && AllocatedSince(r, touched, base)
    decreases |cells|
  {
    if cells != [] {
      VisitCellAllocatedSince(s, family, cells[0], limit, touched, base);
      VisitCellsAllocatedSince(VisitCell(s, family, cells[0], limit), family, cells[1..], limit, touched, base);
    }
  }

  lemma {:induction false} VisitFamiliesAllocatedSince(
    s: State, families: seq<FamilyCells>, limit: nat, touched: set<string>, base: nat)
    requires base <= s.columnIndex && AllocatedSince(s, touched, base)
    ensures var r := VisitFamilies(s, families, limit);
      base <= r.columnIndex && AllocatedSince(r, touched + FamilyNames(families), base)
    decreases |families|
  {
    if families == [] {
      assert touched + FamilyNames(families) == touched;
    } else {
      var head := families[0];
      var more := touched + {head.family};
      var reset := s.(columns := s.columns[head.family := map[]]);
      assert AllocatedSince(reset, more, base);
      VisitCellsAllocatedSince(reset, head.family, head.cells, limit, more, base);
      FamilyNamesCons(families);
      assert more + FamilyNames(families[1..]) == touched + FamilyNames(families);
      VisitFamiliesAllocatedSince(VisitFamily(s, head, limit), families[1..], limit, more, base);
    }
  }

  /**
    After a row, every directory entry of each of the row's families holds an
    index handed out while that row was visited: the indices earlier rows gave
    these families are gone from the directory.
  */
  lemma VisitRowKeepsOnlyItsIndices(s: State, row: Row, limit: nat)
    ensures var r := VisitRow(s, row, limit);
      forall f, c | f in FamilyNames(row.families) && f in r.columns && c in r.columns[f] ::
        s.columnIndex < r.columns[f][c] <= r.columnIndex
  {
    VisitFamiliesAllocatedSince(s, row.families, limit, {}, s.columnIndex);
    assert {} + FamilyNames(row.families) == FamilyNames(row.families);
  }

  // ---------------------------------------------------------------------------
  // Consequences of the per-row reset (line 39)
  // ---------------------------------------------------------------------------

  /** The grid row a key has so far, empty when the key is new. */
  function StoredRow(s: State, key: string): map<nat, Bytes> {
    if key in s.rows then s.rows[key] else map[]
  }

  /** A row with a single family visits that family's cells after emptying its directory. */
  lemma SingleFamilyRow(s: State, key: string, family: string, cells: seq<Cell>, limit: nat)
    ensures VisitRow(s, Row(key, [FamilyCells(family, cells)]), limit)
      == VisitCells(s.(columns := s.columns[family := map[]]), family, cells, limit)
  {
    var families := [FamilyCells(family, cells)];
    assert VisitFamilies(VisitFamily(s, families[0], limit), families[1..], limit)
      == VisitFamily(s, families[0], limit);
  }

  /**
    A row with one family holding one cell: the family's directory becomes
    that single column under the next index, and the value is stored there.
  */
  lemma VisitSingleCellRow(s: State, family: string, cell: Cell, limit: nat)
    ensures var r := VisitRow(s, Row(cell.row, [FamilyCells(family, [cell])]), limit);
      && r.columnIndex == s.columnIndex + 1
      && r.columns == s.columns[family := map[cell.column := r.columnIndex]]
      && r.rows == s.rows[cell.row := StoredRow(s, cell.row)[r.columnIndex := Truncate(cell.value, limit)]]
  {
    var reset := s.(columns := s.columns[family := map[]]);
    SingleFamilyRow(s, cell.row, family, [cell], limit);
    assert VisitCells(reset, family, [cell], limit) == VisitCell(reset, family, cell, limit);
  }

  /**
    The same column in two rows gets two indices: the first row's value sits
    at index 1, the second row's at index 2, and the directory keeps only the
    later index, so index 1 is named by no directory entry.
  */
  lemma IndexNotStableAcrossRows(
    family: string, column: string, key1: string, key2: string, v1: Bytes, v2: Bytes, limit: nat)
    requires key1 != key2
    ensures var s := Collect([
        Row(key1, [FamilyCells(family, [Cell(key1, column, v1)])]),
        Row(key2, [FamilyCells(family, [Cell(key2, column, v2)])])], limit);
      && s.columns == map[family := map[column := 2]]
      && s.rows == map[key1 := map[1 := Truncate(v1, limit)], key2 := map[2 := Truncate(v2, limit)]]
      && s.columnIndex == 2
  {
    var row1 := Row(key1, [FamilyCells(family, [Cell(key1, column, v1)])]);
    var row2 := Row(key2, [FamilyCells(family, [Cell(key2, column, v2)])]);
    FirstRowOfTwo(family, column, key1, v1, limit);
    SecondRowOfTwo(family, column, key1, key2, Truncate(v1, limit), v2, limit);
    CollectTwoRows(row1, row2, limit);
  }

  /**
    A family no later row mentions keeps naming its earlier index: the first
    row's column of `f` stays at index 1 after a second row that holds only
    family `g`, whose column takes index 2.
  */
  lemma IndexKeptByUnmentionedFamily(
    f: string, g: string, a: string, b: string, key1: string, key2: string, v1: Bytes, v2: Bytes, limit: nat)
    requires f != g && key1 != key2
    ensures var s := Collect([
        Row(key1, [FamilyCells(f, [Cell(key1, a, v1)])]),
        Row(key2, [FamilyCells(g, [Cell(key2, b, v2)])])], limit);
      && s.columns == map[f := map[a := 1], g := map[b := 2]]
      && s.rows == map[key1 := map[1 := Truncate(v1, limit)], key2 := map[2 := Truncate(v2, limit)]]
      && s.columnIndex == 2
  {
    var row1 := Row(key1, [FamilyCells(f, [Cell(key1, a, v1)])]);
    var row2 := Row(key2, [FamilyCells(g, [Cell(key2, b, v2)])]);
    FirstRowOfTwo(f, a, key1, v1, limit);
    var s1 := VisitRow(Initial, row1, limit);
    VisitSingleCellRow(s1, g, Cell(key2, b, v2), limit);
    CollectTwoRows(row1, row2, limit);
  }

  lemma FirstRowOfTwo(family: string, column: string, key1: string, v1: Bytes, limit: nat)
    ensures VisitRow(Initial, Row(key1, [FamilyCells(family, [Cell(key1, column, v1)])]), limit)
      == State(map[family := map[column := 1]], map[key1 := map[1 := Truncate(v1, limit)]], 1)
  {
    VisitSingleCellRow(Initial, family, Cell(key1, column, v1), limit);
  }

  lemma SecondRowOfTwo(family: string, column: string, key1: string, key2: string, t1: Bytes, v2: Bytes, limit: nat)
    requires key1 != key2
    ensures VisitRow(State(map[family := map[column := 1]], map[key1 := map[1 := t1]], 1),
                     Row(key2, [FamilyCells(family, [Cell(key2, column, v2)])]), limit)
      == State(map[family := map[column := 2]], map[key1 := map[1 := t1], key2 := map[2 := Truncate(v2, limit)]], 2)
  {
    var s1 := State(map[family := map[column := 1]], map[key1 := map[1 := t1]], 1);
    var t2 := Truncate(v2, limit);
    VisitSingleCellRow(s1, family, Cell(key2, column, v2), limit);
    assert s1.columns[family := map[column := 2]] == map[family := map[column := 2]];
    assert s1.rows[key2 := map[][2 := t2]] == map[key1 := map[1 := t1], key2 := map[2 := t2]];
  }

  /** A family holding one cell gets that column alone, at the next index. */
  lemma SingleCellFamily(s: State, family: string, cell: Cell, limit: nat)
    ensures var r := VisitFamily(s, FamilyCells(family, [cell]), limit);
      && r.columnIndex == s.columnIndex + 1
      && r.columns == s.columns[family := map[cell.column := s.columnIndex + 1]]
  {
    var reset := s.(columns := s.columns[family := map[]]);
    assert VisitCells(reset, family, [cell], limit) == VisitCell(reset, family, cell, limit);
  }

  /** Visiting two families is visiting the first, then the second. */
  lemma TwoFamilies(s: State, first: FamilyCells, second: FamilyCells, limit: nat)
    ensures VisitFamilies(s, [first, second], limit) == VisitFamily(VisitFamily(s, first, limit), second, limit)
  {
    var s1 := VisitFamily(s, first, limit);
    assert [first, second][1..] == [second];
    assert VisitFamilies(s1, [second], limit) == VisitFamilies(VisitFamily(s1, second, limit), [], limit);
  }

  /**
    The order a row's families are visited in (line 38) decides the column
    positions: with one cell in each of two families, the family visited
    first takes index 1 and the other index 2.
  */
  lemma FamilyOrderDecidesIndices(
    key: string, f: string, a: string, va: Bytes, g: string, b: string, vb: Bytes, limit: nat)
    requires f != g
    ensures var fFirst :=
        Collect([Row(key, [FamilyCells(f, [Cell(key, a, va)]), FamilyCells(g, [Cell(key, b, vb)])])], limit);
      && f in fFirst.columns && a in fFirst.columns[f] && fFirst.columns[f][a] == 1
      && g in fFirst.columns && b in fFirst.columns[g] && fFirst.columns[g][b] == 2
    ensures var gFirst :=
        Collect([Row(key, [FamilyCells(g, [Cell(key, b, vb)]), FamilyCells(f, [Cell(key, a, va)])])], limit);
      && f in gFirst.columns && a in gFirst.columns[f] && gFirst.columns[f][a] == 2
      && g in gFirst.columns && b in gFirst.columns[g] && gFirst.columns[g][b] == 1
  {
    FirstFamilyFirstIndex(key, f, a, va, g, b, vb, limit);
    FirstFamilyFirstIndex(key, g, b, vb, f, a, va, limit);
  }

  /** In a row of two one-cell families, the first family visited takes index 1 and the second index 2. */
  lemma FirstFamilyFirstIndex(
    key: string, f: string, a: string, va: Bytes, g: string, b: string, vb: Bytes, limit: nat)
    requires f != g
    ensures
      Collect([Row(key, [FamilyCells(f, [Cell(key, a, va)]), FamilyCells(g, [Cell(key, b, vb)])])], limit).columns
      == map[f := map[a := 1], g := map[b := 2]]
  {
    var fa, gb := FamilyCells(f, [Cell(key, a, va)]), FamilyCells(g, [Cell(key, b, vb)]);
    var s1 := VisitFamily(Initial, fa, limit);
    CollectOneRow(Row(key, [fa, gb]), limit);
    TwoFamilies(Initial, fa, gb, limit);
    SingleCellFamily(Initial, f, Cell(key, a, va), limit);
    SingleCellFamily(s1, g, Cell(key, b, vb), limit);
    assert s1.columns == map[f := map[a := 1]] && s1.columnIndex == 1;
  }

  /** Collecting two rows visits the first, then the second. */
  lemma CollectTwoRows(row1: Row, row2: Row, limit: nat)
    ensures Collect([row1, row2], limit) == VisitRow(VisitRow(Initial, row1, limit), row2, limit)
  {
    var s1 := VisitRow(Initial, row1, limit);
    var s2 := VisitRow(s1, row2, limit);
    assert CollectFrom(s2, [], limit) == s2;
    assert CollectFrom(s1, [row2], limit) == s2;
    assert [row1, row2][1..] == [row2];
    assert CollectFrom(Initial, [row1, row2], limit) == CollectFrom(s1, [row2], limit);
  }

  /** Collecting one row visits it. */
  lemma CollectOneRow(row: Row, limit: nat)
    ensures Collect([row], limit) == VisitRow(Initial, row, limit)
  {
    var s1 := VisitRow(Initial, row, limit);
    assert CollectFrom(s1, [], limit) == s1;
    assert [row][1..] == [];
  }

  /**
    A column listed twice in one family (which the latest-version filter rules
    out) overwrites the first entry with the current index, so two columns
    end up sharing an index.
  */
  lemma RepeatedColumnBreaksInjectivity(key: string, family: string, a: string, b: string, limit: nat)
    requires a != b
    ensures var s := Collect([Row(key, [FamilyCells(family, [
        Cell(key, a, Nil), Cell(key, b, Nil), Cell(key, a, Nil)])])], limit);
      && family in s.columns && a in s.columns[family] && b in s.columns[family]
      && s.columns[family][a] == s.columns[family][b] == 2
      && !Injective(s.columns)
  {
    var cells := [Cell(key, a, Nil), Cell(key, b, Nil), Cell(key, a, Nil)];
    var row := Row(key, [FamilyCells(family, cells)]);
    CollectOneRow(row, limit);
    SingleFamilyRow(Initial, key, family, cells, limit);
    assert Initial.(columns := Initial.columns[family := map[]]) == State(map[family := map[]], map[], 0);
    RepeatedColumnCells(key, family, a, b, limit);
  }

  /** The directory entries of `a` and `b` after the cells `a`, `b`, `a` of one family, starting empty. */
  lemma RepeatedColumnCells(key: string, family: string, a: string, b: string, limit: nat)
    requires a != b
    ensures var r := VisitCells(State(map[family := map[]], map[], 0), family,
                                [Cell(key, a, Nil), Cell(key, b, Nil), Cell(key, a, Nil)], limit);
      && family in r.columns && a in r.columns[family] && b in r.columns[family]
      && r.columns[family][a] == 2 && r.columns[family][b] == 2
  {
    var ca, cb := Cell(key, a, Nil), Cell(key, b, Nil);
    var s0 := State(map[family := map[]], map[], 0);
    var s1 := VisitCell(s0, family, ca, limit);
    var s2 := VisitCell(s1, family, cb, limit);
    var s3 := VisitCell(s2, family, ca, limit);
    assert s1.columnIndex == 1 && s1.columns[family].Keys == {a} by {
      assert a !in s0.columns[family];
    }
    assert s2.columnIndex == 2 && s2.columns[family][b] == 2 && a in s2.columns[family] by {
      assert b !in s1.columns[family];
    }
    assert s3.columnIndex == 2;
    assert s3.columns[family][b] == 2;
    assert VisitCells(s2, family, [ca], limit) == s3 by {
      assert [ca][1..] == [];
    }
    assert VisitCells(s1, family, [cb, ca], limit) == s3 by {
      assert [cb, ca][1..] == [ca];
    }
    assert [ca, cb, ca][1..] == [cb, ca];
  }
}

=== FILE: go.dfy ===
/**
  The parts of Go's semantics the core relies on: nil versus empty byte
  slices, run-time panics, `strings.TrimPrefix`, and the width of `int`.
*/
module Go {

  /** `math.MaxInt` on the 64-bit platforms the tool is built for. */
  const MaxInt: int := 0x7FFF_FFFF_FFFF_FFFF

  type byte = bv8

  datatype Option<+T> = None | Some(value: T)

  datatype Result<+T, +E> = Success(value: T) | Failure(error: E)

  /**
    The outcome of evaluating Go code that may panic at run time (an index or
    a slice bound out of range). No code in the program recovers a panic, so
    a panic ends the whole invocation.
  */
  datatype Run<+T> = Returns(value: T) | Panics

  /** A Go `[]byte`: either nil, or a non-nil slice that may still be empty. */
  datatype Bytes = Nil | Slice(data: seq<byte>) {

    /** `len(b)`; a nil slice has length 0. */
    function Len(): nat {
      if Nil? then 0 else |data|
    }

    /** The bytes of `string(b)`; a nil slice converts to the empty string. */
    function Contents(): seq<byte> {
      if Nil? then [] else data
    }
  }

  /** `strings.TrimPrefix(s, prefix)`: `s` without a leading `prefix`, or `s` itself. */
  function TrimPrefix(s: string, prefix: string): (r: string)
    ensures prefix <= s ==> prefix + r == s
    ensures !(prefix <= s) ==> r == s
  {
    if prefix <= s then s[|prefix|..] else s
  }

  /** Removing a prefix that was just prepended gives back the original string. */
  lemma TrimPrefixOfPrefixed(prefix: string, rest: string)
    ensures TrimPrefix(prefix + rest, prefix) == rest
  {
    assert prefix <= prefix + rest;
  }
}

=== FILE: renderer.dfy ===
/**
  The table construction of `WriteTable` (representation/table.go, lines
  65-97): a family row and a column-name row built from the column
  directory (the writer gets the first as its header and the second as a
  plain row under it), and one data row per row key built from the grid,
  with the caller's value mapper taking precedence over the raw bytes.

  Go iterates maps in an unspecified order. The model takes the orders of
  these loops as a `Schedule` (an iteration of the directory, lines 73-74; of
  the row keys, line 84; of each row's indices, line 87) and proves which
  parts of the result do not depend on them.
  Rendering the rows to a terminal is not modelled: the result is the rows.
*/
module Renderer {
  import opened Go
  import opened Collector

  /**
    A slot of a `table.Row`: never written (a nil interface), a string, or
    the bytes of a stored value shown as `string(data)`.
  */
  datatype Slot = Unset | Text(text: string) | Raw(bytes: seq<byte>)

  /** The two results of a `ValueMapperFunc` (representation/table.go, line 16). */
  datatype Mapping = Mapping(representation: string, mapped: bool)

  /** A `ValueMapperFunc`; a call may panic. */
  type ValueMapper = Bytes -> Run<Mapping>

  /**
    The slot for one stored value (lines 88-94): the mapper's string when a
    mapper is given and reports the value as mapped, `string(data)` otherwise.
  */
  function RenderCell(data: Bytes, mapper: Option<ValueMapper>): (r: Run<Slot>)
    ensures r.Panics? <==> mapper.Some? && mapper.value(data).Panics?
    ensures r.Returns? && r.value.Text? ==>
      mapper.Some? && mapper.value(data) == Returns(Mapping(r.value.text, true))
    ensures r.Returns? && !r.value.Text? ==>
      r.value == Raw(data.Contents()) && (mapper.None? || !mapper.value(data).value.mapped)
  {
    match mapper
    case None => Returns(Raw(data.Contents()))
    case Some(f) =>
      match f(data)
      case Panics => Panics
      case Returns(m) => if m.mapped then Returns(Text(m.representation)) else Returns(Raw(data.Contents()))
  }

  // ---------------------------------------------------------------------------
  // Header rows (lines 68-77)
  // ---------------------------------------------------------------------------

  /** One directory entry as the header loop sees it. */
  datatype Entry = Entry(family: string, column: string, index: nat)

  datatype Header = Header(familyRow: seq<Slot>, columnRow: seq<Slot>)

  /** The column label under a family: the column name without a leading `family:` (line 76). */
  function ShortName(family: string, column: string): string {
    TrimPrefix(column, family + ":")
  }

  ghost predicate Listed(e: Entry, columns: map<string, map<string, nat>>) {
    e.family in columns && e.column in columns[e.family] && columns[e.family][e.column] == e.index
  }

  /** `entries` is an iteration of the directory: it lists directory entries and all of them. */
  ghost predicate Enumerates(entries: seq<Entry>, columns: map<string, map<string, nat>>) {
    && (forall j | 0 <= j < |entries| :: Listed(entries[j], columns))
    && (forall f, c | f in columns && c in columns[f] :: Entry(f, c, columns[f][c]) in entries)
  }

  /** No entry of `entries` writes slot `i`. */
  ghost predicate Unwritten(entries: seq<Entry>, i: nat) {
    forall j | 0 <= j < |entries| :: entries[j].index != i
  }

  /** No directory entry carries index `i`. */
  ghost predicate Unnamed(columns: map<string, map<string, nat>>, i: nat) {
    forall f, c | f in columns && c in columns[f] :: columns[f][c] != i
  }

  /** Entries that share an index are the same entry. */
  ghost predicate Consistent(entries: seq<Entry>) {
    forall j, k | 0 <= j < |entries| && 0 <= k < |entries| && entries[j].index == entries[k].index ::
      entries[j] == entries[k]
  }

  /** The header loop (lines 73-78): each entry writes its family and short name at its index. */
  function FillHeader(h: Header, entries: seq<Entry>): (r: Header)
    requires |h.familyRow| == |h.columnRow|
    requires forall j | 0 <= j < |entries| :: entries[j].index < |h.familyRow|
    ensures |r.familyRow| == |h.familyRow| && |r.columnRow| == |h.columnRow|
    ensures forall i: nat | i < |h.familyRow| && Unwritten(entries, i) ::
      r.familyRow[i] == h.familyRow[i] && r.columnRow[i] == h.columnRow[i]
    decreases |entries|
  {
    if entries == [] then h
    else
      var e := entries[0];
      var next := Header(
        h.familyRow[e.index := Text(e.family)],
        h.columnRow[e.index := Text(ShortName(e.family, e.column))]);
      assert forall i: nat | Unwritten(entries, i) :: Unwritten(entries[1..], i) && e.index != i by {
        forall i: nat | Unwritten(entries, i) ensures Unwritten(entries[1..], i) && e.index != i {
          forall j | 0 <= j < |entries[1..]| ensures entries[1..][j].index != i {
            assert entries[1..][j] == entries[j + 1];
          }
        }
      }
      FillHeader(next, entries[1..])
  }

  /** A row of `width` unset slots whose slot 0 is `first` (`make(table.Row, width)`, then slot 0). */
  function Blank(width: nat, first: Slot): (r: seq<Slot>)
    requires width > 0
  {
    seq(width, i => if i == 0 then first else Unset)
  }

  /** The two header rows (lines 68-78): both of length `columnIndex + 1`. */
  function BuildHeader(columns: map<string, map<string, nat>>, columnIndex: nat, entries: seq<Entry>): (h: Header)
    requires Enumerates(entries, columns)
    requires forall f, c | f in columns && c in columns[f] :: columns[f][c] <= columnIndex
    ensures |h.familyRow| == columnIndex + 1 && |h.columnRow| == columnIndex + 1
  {
    var blank := Blank(columnIndex + 1, Text(""));
    assert forall j | 0 <= j < |entries| :: Listed(entries[j], columns);
    FillHeader(Header(blank, blank), entries)
  }

  /** With consistent entries, the slot an entry names ends up holding that entry's labels. */
  lemma {:induction false} FillHeaderWritten(h: Header, entries: seq<Entry>, j: nat)
    requires |h.familyRow| == |h.columnRow|
    requires forall k | 0 <= k < |entries| :: entries[k].index < |h.familyRow|
    requires Consistent(entries)
    requires j < |entries|
    ensures var r := FillHeader(h, entries);
      && r.familyRow[entries[j].index] == Text(entries[j].family)
      && r.columnRow[entries[j].index] == Text(ShortName(entries[j].family, entries[j].column))
    decreases |entries|
  {
    var e := entries[0];
    var next := Header(
      h.familyRow[e.index := Text(e.family)],
      h.columnRow[e.index := Text(ShortName(e.family, e.column))]);
    var rest := entries[1..];
    assert Consistent(rest) by {
      forall a, b | 0 <= a < |rest| && 0 <= b < |rest| && rest[a].index == rest[b].index
        ensures rest[a] == rest[b]
      {
        assert rest[a] == entries[a + 1] && rest[b] == entries[b + 1];
      }
    }
    if j > 0 {
      assert rest[j - 1] == entries[j];
      FillHeaderWritten(next, rest, j - 1);
    } else if k :| 0 <= k < |rest| && rest[k].index == e.index {
      assert rest[k] == entries[k + 1] == e;
      FillHeaderWritten(next, rest, k);
    } else {
      assert Unwritten(rest, e.index);
    }
  }

  /** A directory whose indices are distinct lists consistently in every iteration. */
  lemma EnumerationConsistent(entries: seq<Entry>, columns: map<string, map<string, nat>>)
    requires Enumerates(entries, columns) && Injective(columns)
    ensures Consistent(entries)
  {
    forall j, k | 0 <= j < |entries| && 0 <= k < |entries| && entries[j].index == entries[k].index
      ensures entries[j] == entries[k]
    {
      assert Listed(entries[j], columns) && Listed(entries[k], columns);
    }
  }

  /**
    With distinct indices, the header names every directory entry's family and
    short column name at its index, and leaves every other slot as it was
    made: `""` at slot 0, unset elsewhere.
  */
  lemma HeaderSlots(columns: map<string, map<string, nat>>, columnIndex: nat, entries: seq<Entry>)
    requires Enumerates(entries, columns)
    requires forall f, c | f in columns && c in columns[f] :: columns[f][c] <= columnIndex
    requires Injective(columns)
    ensures var h := BuildHeader(columns, columnIndex, entries);
      && (forall f, c | f in columns && c in columns[f] ::
            h.familyRow[columns[f][c]] == Text(f) && h.columnRow[columns[f][c]] == Text(ShortName(f, c)))
      && (forall i: nat | i <= columnIndex && Unnamed(columns, i) ::
            h.familyRow[i] == (if i == 0 then Text("") else Unset)
            && h.columnRow[i] == (if i == 0 then Text("") else Unset))
  {
    var h := BuildHeader(columns, columnIndex, entries);
    var blank := Blank(columnIndex + 1, Text(""));
    EnumerationConsistent(entries, columns);
    forall f, c | f in columns && c in columns[f]
      ensures h.familyRow[columns[f][c]] == Text(f) && h.columnRow[columns[f][c]] == Text(ShortName(f, c))
    {
      var j :| 0 <= j < |entries| && entries[j] == Entry(f, c, columns[f][c]);
      FillHeaderWritten(Header(blank, blank), entries, j);
    }
    forall i: nat | i <= columnIndex && Unnamed(columns, i)
      ensures Unwritten(entries, i)
    {
      forall j | 0 <= j < |entries| ensures entries[j].index != i {
        assert Listed(entries[j], columns);
      }
    }
  }

  /** With distinct indices, the header does not depend on the order the directory is iterated in. */
  lemma HeaderOrderIndependent(
    columns: map<string, map<string, nat>>, columnIndex: nat, entries1: seq<Entry>, entries2: seq<Entry>)
    requires Enumerates(entries1, columns) && Enumerates(entries2, columns)
    requires forall f, c | f in columns && c in columns[f] :: columns[f][c] <= columnIndex
    requires Injective(columns)
    ensures BuildHeader(columns, columnIndex, entries1) == BuildHeader(columns, columnIndex, entries2)
  {
    var h1 := BuildHeader(columns, columnIndex, entries1);
    var h2 := BuildHeader(columns, columnIndex, entries2);
    HeaderSlots(columns, columnIndex, entries1);
    HeaderSlots(columns, columnIndex, entries2);
    forall i: nat | i <= columnIndex
      ensures h1.familyRow[i] == h2.familyRow[i] && h1.columnRow[i] == h2.columnRow[i]
    {
      if f, c :| f in columns && c in columns[f] && columns[f][c] == i {
        assert h1.familyRow[i] == Text(f) == h2.familyRow[i];
        assert h1.columnRow[i] == Text(ShortName(f, c)) == h2.columnRow[i];
      } else {
        assert Unnamed(columns, i);
      }
    }
    assert h1.familyRow == h2.familyRow;
    assert h1.columnRow == h2.columnRow;
  }

  // ---------------------------------------------------------------------------
  // Data rows (lines 84-97)
  // ---------------------------------------------------------------------------

  /**
    The loop over one row's stored values (lines 87-95), in the given
    iteration order: each value is rendered into the slot of its index; a
    panicking mapper ends the run.
  */
  function FillRow(row: seq<Slot>, cells: map<nat, Bytes>, order: seq<nat>, mapper: Option<ValueMapper>)
    : (r: Run<seq<Slot>>)
    requires forall j | 0 <= j < |order| :: order[j] in cells && order[j] < |row|
    ensures r.Returns? ==> |r.value| == |row|
    ensures r.Returns? ==> forall i | 0 <= i < |row| && i !in order :: r.value[i] == row[i]
    decreases |order|
  {
    if order == [] then Returns(row)
    else
      match RenderCell(cells[order[0]], mapper)
      case Panics => Panics
      case Returns(slot) =>
        assert forall i | i !in order :: i !in order[1..] && i != order[0] by {
          assert order == [order[0]] + order[1..];
        }
        FillRow(row[order[0] := slot], cells, order[1..], mapper)
  }

  /**
    The row loop panics exactly when the mapper panics on a value it visits;
    otherwise every visited index holds its value's rendering.
  */
  lemma {:induction false} FillRowSlots(
    row: seq<Slot>, cells: map<nat, Bytes>, order: seq<nat>, mapper: Option<ValueMapper>)
    requires forall j | 0 <= j < |order| :: order[j] in cells && order[j] < |row|
    ensures var r := FillRow(row, cells, order, mapper);
      && (r.Panics? <==> exists j | 0 <= j < |order| :: RenderCell(cells[order[j]], mapper).Panics?)
      && (r.Returns? ==>
            forall j | 0 <= j < |order| :: r.value[order[j]] == RenderCell(cells[order[j]], mapper).value)
    decreases |order|
  {
    if order != [] {
      var rest := order[1..];
      assert forall j | 0 <= j < |rest| :: rest[j] == order[j + 1];
      match RenderCell(cells[order[0]], mapper)
      case Panics =>
      case Returns(slot) =>
        var next := row[order[0] := slot];
        FillRowSlots(next, cells, rest, mapper);
        var r := FillRow(next, cells, rest, mapper);
        if r.Returns? {
          if order[0] !in rest {
            assert r.value[order[0]] == slot;
          }
          forall j | 0 <= j < |order| ensures r.value[order[j]] == RenderCell(cells[order[j]], mapper).value {
            if j > 0 {
              assert order[j] == rest[j - 1];
            } else if order[0] in rest {
              var k :| 0 <= k < |rest| && rest[k] == order[0];
            }
          }
        } else {
          var k :| 0 <= k < |rest| && RenderCell(cells[rest[k]], mapper).Panics?;
          assert rest[k] == order[k + 1];
        }
    }
  }

  /**
    The data row for one row key, slot by slot: slot 0 holds the key, a slot
    with a stored value holds its rendering, every other slot stays unset.
  */
  function ExpectedRow(key: string, cells: map<nat, Bytes>, columnIndex: nat, mapper: Option<ValueMapper>): seq<Slot>
    requires forall i | i in cells :: i <= columnIndex && RenderCell(cells[i], mapper).Returns?
  {
    seq(columnIndex + 1, i requires 0 <= i <= columnIndex =>
      if i in cells then RenderCell(cells[i], mapper).value
      else if i == 0 then Text(key)
      else Unset)
  }

  /** One data row (lines 85-95), filled in the given iteration order of its stored values. */
  function BuildDataRow(key: string, cells: map<nat, Bytes>, columnIndex: nat, mapper: Option<ValueMapper>,
                        order: seq<nat>): (r: Run<seq<Slot>>)
    requires forall j | 0 <= j < |order| :: order[j] in cells
    requires forall i | i in cells :: i <= columnIndex
    ensures r.Returns? ==> |r.value| == columnIndex + 1
  {
    FillRow(Blank(columnIndex + 1, Text(key)), cells, order, mapper)
  }

  /** `order` lists exactly the keys in `keys`. */
  ghost predicate Covers<K>(order: seq<K>, keys: set<K>) {
    && (forall j | 0 <= j < |order| :: order[j] in keys)
    && (forall k | k in keys :: k in order)
  }

  /**
    Whatever order a row's stored values are visited in, the row panics
    exactly when the mapper panics on one of them, and otherwise is the
    expected row.
  */
  lemma DataRowAsExpected(
    key: string, cells: map<nat, Bytes>, columnIndex: nat, mapper: Option<ValueMapper>, order: seq<nat>)
    requires Covers(order, cells.Keys)
    requires forall i | i in cells :: i <= columnIndex
    ensures var r := BuildDataRow(key, cells, columnIndex, mapper, order);
      && (r.Panics? <==> exists i | i in cells :: RenderCell(cells[i], mapper).Panics?)
      && (r.Returns? ==> r.value == ExpectedRow(key, cells, columnIndex, mapper))
  {
    var blank := Blank(columnIndex + 1, Text(key));
    var r := FillRow(blank, cells, order, mapper);
    FillRowSlots(blank, cells, order, mapper);
    if r.Panics? {
      var j :| 0 <= j < |order| && RenderCell(cells[order[j]], mapper).Panics?;
    } else {
      forall i | i in cells ensures RenderCell(cells[i], mapper).Returns? {
        var j :| 0 <= j < |order| && order[j] == i;
      }
      var expected := ExpectedRow(key, cells, columnIndex, mapper);
      forall i | 0 <= i <= columnIndex ensures r.value[i] == expected[i] {
        if i in cells {
          var j :| 0 <= j < |order| && order[j] == i;
        }
      }
    }
  }

  // ---------------------------------------------------------------------------
  // The whole table
  // ---------------------------------------------------------------------------

  /** The iteration orders Go happens to use for the directory, the row keys and each row. */
  datatype Schedule = Schedule(entries: seq<Entry>, rowKeys: seq<string>, cellKeys: map<string, seq<nat>>)

  /** Row `key` of the grid can be rendered with the schedule's order of its values. */
  ghost predicate Scheduled(
    rows: map<string, map<nat, Bytes>>, columnIndex: nat, key: string, cellKeys: map<string, seq<nat>>)
  {
    && key in rows && key in cellKeys
    && Covers(cellKeys[key], rows[key].Keys)
    && (forall i | i in rows[key] :: i <= columnIndex)
  }

  /** The schedule is a possible iteration order of the state's maps, each row key visited once. */
  ghost predicate ValidSchedule(sched: Schedule, s: State) {
    && Enumerates(sched.entries, s.columns)
    && Covers(sched.rowKeys, s.rows.Keys)
    && (forall j, k | 0 <= j < k < |sched.rowKeys| :: sched.rowKeys[j] != sched.rowKeys[k])
    && (forall key | key in s.rows :: key in sched.cellKeys && Covers(sched.cellKeys[key], s.rows[key].Keys))
  }

  /** The loop over the grid (lines 84-97): one data row per row key, in the given order. */
  function FillBody(rows: map<string, map<nat, Bytes>>, columnIndex: nat, mapper: Option<ValueMapper>,
                    rowKeys: seq<string>, cellKeys: map<string, seq<nat>>): (r: Run<seq<seq<Slot>>>)
    requires forall j | 0 <= j < |rowKeys| :: Scheduled(rows, columnIndex, rowKeys[j], cellKeys)
    ensures r.Returns? ==> |r.value| == |rowKeys|
    decreases |rowKeys|
  {
    if rowKeys == [] then Returns([])
    else
      var key := rowKeys[0];
      assert Scheduled(rows, columnIndex, key, cellKeys);
      match BuildDataRow(key, rows[key], columnIndex, mapper, cellKeys[key])
      case Panics => Panics
      case Returns(first) =>
        assert forall j | 0 <= j < |rowKeys[1..]| :: rowKeys[1..][j] == rowKeys[j + 1];
        match FillBody(rows, columnIndex, mapper, rowKeys[1..], cellKeys)
        case Panics => Panics
        case Returns(rest) => Returns([first] + rest)
  }

  /** The mapper panics on some value stored under one of `keys`. */
  ghost predicate PanicsOnSome(rows: map<string, map<nat, Bytes>>, keys: seq<string>, mapper: Option<ValueMapper>) {
    exists j, i | 0 <= j < |keys| && keys[j] in rows && i in rows[keys[j]] ::
      RenderCell(rows[keys[j]][i], mapper).Panics?
  }

  /**
    The data rows panic exactly when the mapper panics on a stored value of a
    listed row; otherwise the j-th data row is the expected row of the j-th key.
  */
  lemma {:induction false} BodyAsExpected(
    rows: map<string, map<nat, Bytes>>, columnIndex: nat, mapper: Option<ValueMapper>,
    rowKeys: seq<string>, cellKeys: map<string, seq<nat>>)
    requires forall j | 0 <= j < |rowKeys| :: Scheduled(rows, columnIndex, rowKeys[j], cellKeys)
    ensures var r := FillBody(rows, columnIndex, mapper, rowKeys, cellKeys);
      && (r.Panics? <==> PanicsOnSome(rows, rowKeys, mapper))
      && (r.Returns? ==> forall j | 0 <= j < |rowKeys| ::
            && (forall i | i in rows[rowKeys[j]] :: RenderCell(rows[rowKeys[j]][i], mapper).Returns?)
            && r.value[j] == ExpectedRow(rowKeys[j], rows[rowKeys[j]], columnIndex, mapper))
    decreases |rowKeys|
  {
    if rowKeys != [] {
      var key, rest := rowKeys[0], rowKeys[1..];
      assert forall j | 0 <= j < |rest| :: rest[j] == rowKeys[j + 1];
      DataRowAsExpected(key, rows[key], columnIndex, mapper, cellKeys[key]);
      BodyAsExpected(rows, columnIndex, mapper, rest, cellKeys);
      var first := BuildDataRow(key, rows[key], columnIndex, mapper, cellKeys[key]);
      var tail := FillBody(rows, columnIndex, mapper, rest, cellKeys);
      if first.Panics? {
        var i :| i in rows[key] && RenderCell(rows[key][i], mapper).Panics?;
        assert rowKeys[0] == key;
      } else if tail.Panics? {
        var j, i :|
          && 0 <= j < |rest| && rest[j] in rows && i in rows[rest[j]]
          && RenderCell(rows[rest[j]][i], mapper).Panics?;
        assert rowKeys[j + 1] == rest[j];
      } else {
        forall j, i | 0 <= j < |rowKeys| && rowKeys[j] in rows && i in rows[rowKeys[j]]
          ensures RenderCell(rows[rowKeys[j]][i], mapper).Returns?
        {
          if j > 0 {
            assert rest[j - 1] == rowKeys[j];
          }
        }
        var body := [first.value] + tail.value;
        forall j | 0 <= j < |rowKeys|
          ensures (forall i | i in rows[rowKeys[j]] :: RenderCell(rows[rowKeys[j]][i], mapper).Returns?)
          ensures body[j] == ExpectedRow(rowKeys[j], rows[rowKeys[j]], columnIndex, mapper)
        {
          if j > 0 {
            assert rest[j - 1] == rowKeys[j];
          }
        }
      }
    }
  }

  /**
    What the table writer is handed: the family row as its header (line 80),
    the column-name row as an ordinary row followed by a separator (lines
    81-82), and the data rows (line 96).
  */
  datatype Table = Table(familyRow: seq<Slot>, columnRow: seq<Slot>, body: seq<seq<Slot>>)

  /** Lines 65-97 on a collected state, with the given iteration orders. */
  function BuildTable(s: State, mapper: Option<ValueMapper>, sched: Schedule): (r: Run<Table>)
    requires Bounded(s) && ValidSchedule(sched, s)
    ensures r.Returns? ==>
      && |r.value.familyRow| == s.columnIndex + 1
      && |r.value.columnRow| == s.columnIndex + 1
      && |r.value.body| == |sched.rowKeys|
  {
    var header := BuildHeader(s.columns, s.columnIndex, sched.entries);
    assert forall j | 0 <= j < |sched.rowKeys| :: Scheduled(s.rows, s.columnIndex, sched.rowKeys[j], sched.cellKeys);
    match FillBody(s.rows, s.columnIndex, mapper, sched.rowKeys, sched.cellKeys)
    case Panics => Panics
    case Returns(body) => Returns(Table(header.familyRow, header.columnRow, body))
  }

  /** Every value stored in the grid renders without a panic. */
  ghost predicate RendersAll(rows: map<string, map<nat, Bytes>>, mapper: Option<ValueMapper>) {
    forall key, i | key in rows && i in rows[key] :: RenderCell(rows[key][i], mapper).Returns?
  }

  /** Whatever the iteration order, the table panics exactly when the mapper panics on a stored value. */
  lemma TablePanics(s: State, mapper: Option<ValueMapper>, sched: Schedule)
    requires Bounded(s) && ValidSchedule(sched, s)
    ensures BuildTable(s, mapper, sched).Panics? <==> !RendersAll(s.rows, mapper)
  {
    assert forall j | 0 <= j < |sched.rowKeys| :: Scheduled(s.rows, s.columnIndex, sched.rowKeys[j], sched.cellKeys);
    BodyAsExpected(s.rows, s.columnIndex, mapper, sched.rowKeys, sched.cellKeys);
    var body := FillBody(s.rows, s.columnIndex, mapper, sched.rowKeys, sched.cellKeys);
    if body.Panics? {
      var j, i :| 0 <= j < |sched.rowKeys| && sched.rowKeys[j] in s.rows && i in s.rows[sched.rowKeys[j]]
        && RenderCell(s.rows[sched.rowKeys[j]][i], mapper).Panics?;
    } else {
      forall key, i | key in s.rows && i in s.rows[key] ensures RenderCell(s.rows[key][i], mapper).Returns? {
        var j :| 0 <= j < |sched.rowKeys| && sched.rowKeys[j] == key;
      }
    }
  }

  /**
    The table panics exactly when the mapper panics on a stored value.
    Otherwise, with distinct directory indices, the header rows carry each
    directory entry's family and short column name at its index (the other
    slots as made), and the j-th data row is the expected row of the j-th
    row key visited.
  */
  lemma TableContents(s: State, mapper: Option<ValueMapper>, sched: Schedule)
    requires Bounded(s) && ValidSchedule(sched, s) && Injective(s.columns)
    ensures var r := BuildTable(s, mapper, sched);
      && (r.Panics? <==> !RendersAll(s.rows, mapper))
      && (r.Returns? ==>
            && (forall f, c | f in s.columns && c in s.columns[f] ::
                  && r.value.familyRow[s.columns[f][c]] == Text(f)
                  && r.value.columnRow[s.columns[f][c]] == Text(ShortName(f, c)))
            && (forall i: nat | i <= s.columnIndex && Unnamed(s.columns, i) ::
                  && r.value.familyRow[i] == (if i == 0 then Text("") else Unset)
                  && r.value.columnRow[i] == (if i == 0 then Text("") else Unset))
            && (forall j | 0 <= j < |sched.rowKeys| ::
                  r.value.body[j] == ExpectedRow(sched.rowKeys[j], s.rows[sched.rowKeys[j]], s.columnIndex, mapper)))
  {
    assert forall j | 0 <= j < |sched.rowKeys| :: Scheduled(s.rows, s.columnIndex, sched.rowKeys[j], sched.cellKeys);
    HeaderSlots(s.columns, s.columnIndex, sched.entries);
    BodyAsExpected(s.rows, s.columnIndex, mapper, sched.rowKeys, sched.cellKeys);
    TablePanics(s, mapper, sched);
  }

  /** A table that does not panic holds, as data rows, exactly the expected rows of the grid's row keys. */
  lemma TableRows(s: State, mapper: Option<ValueMapper>, sched: Schedule)
    requires Bounded(s) && ValidSchedule(sched, s) && Injective(s.columns)
    ensures var r := BuildTable(s, mapper, sched);
      r.Returns? ==>
        && RendersAll(s.rows, mapper)
        && forall row :: row in r.value.body <==>
             exists key | key in s.rows :: row == ExpectedRow(key, s.rows[key], s.columnIndex, mapper)
  {
    var r := BuildTable(s, mapper, sched);
    TableContents(s, mapper, sched);
    if r.Returns? {
      var body := r.value.body;
      forall row ensures row in body <==>
        exists key | key in s.rows :: row == ExpectedRow(key, s.rows[key], s.columnIndex, mapper)
      {
        if row in body {
          var j :| 0 <= j < |body| && body[j] == row;
          assert sched.rowKeys[j] in s.rows;
        }
        if key :| key in s.rows && row == ExpectedRow(key, s.rows[key], s.columnIndex, mapper) {
          var j :| 0 <= j < |sched.rowKeys| && sched.rowKeys[j] == key;
          assert body[j] == row;
        }
      }
    }
  }

  /**
    Some row of `body`, `width` slots wide and starting with `key`, holds the
    rendering of `value` in slot `i`.
  */
  ghost predicate Shows(
    body: seq<seq<Slot>>, width: nat, key: string, i: nat, value: Bytes, mapper: Option<ValueMapper>)
  {
    exists row | row in body ::
      && |row| == width && i < width
      && row[0] == Text(key)
      && RenderCell(value, mapper) == Returns(row[i])
  }

  /**
    A table that does not panic shows every stored value: the value at index
    `i` of row key `key` is rendered into slot `i` of a data row that starts
    with `key`.
  */
  lemma TableShowsStoredValues(s: State, mapper: Option<ValueMapper>, sched: Schedule)
    requires Bounded(s) && ValidSchedule(sched, s) && Injective(s.columns)
    ensures var r := BuildTable(s, mapper, sched);
      r.Returns? ==> forall key, i | key in s.rows && i in s.rows[key] ::
        Shows(r.value.body, s.columnIndex + 1, key, i, s.rows[key][i], mapper)
  {
    var r := BuildTable(s, mapper, sched);
    TableRows(s, mapper, sched);
    if r.Returns? {
      forall key, i | key in s.rows && i in s.rows[key]
        ensures Shows(r.value.body, s.columnIndex + 1, key, i, s.rows[key][i], mapper)
      {
        var row := ExpectedRow(key, s.rows[key], s.columnIndex, mapper);
        assert row in r.value.body;
        assert 0 !in s.rows[key];
      }
    }
  }

  /** Two listings of the same row keys, each rendered to its expected rows, hold the same rows. */
  lemma ExpectedRowsAgree(rows: map<string, map<nat, Bytes>>, columnIndex: nat, mapper: Option<ValueMapper>,
                          keys1: seq<string>, body1: seq<seq<Slot>>, keys2: seq<string>, body2: seq<seq<Slot>>)
    requires RendersAll(rows, mapper)
    requires forall key, i | key in rows && i in rows[key] :: i <= columnIndex
    requires Covers(keys1, rows.Keys) && Covers(keys2, rows.Keys)
    requires |body1| == |keys1| && |body2| == |keys2|
    requires forall j | 0 <= j < |keys1| :: body1[j] == ExpectedRow(keys1[j], rows[keys1[j]], columnIndex, mapper)
    requires forall k | 0 <= k < |keys2| :: body2[k] == ExpectedRow(keys2[k], rows[keys2[k]], columnIndex, mapper)
    ensures forall row | row in body1 :: row in body2
  {
    forall row | row in body1 ensures row in body2 {
      var j :| 0 <= j < |body1| && body1[j] == row;
      var k :| 0 <= k < |keys2| && keys2[k] == keys1[j];
      assert body2[k] == row;
    }
  }

  /**
    With distinct directory indices the table does not depend on the
    schedule: under any two schedules it panics in the same cases,
    has the same header rows, and holds the same data rows.
  */
  lemma TableOrderIndependent(s: State, mapper: Option<ValueMapper>, sched1: Schedule, sched2: Schedule)
    requires Bounded(s) && Injective(s.columns)
    requires ValidSchedule(sched1, s) && ValidSchedule(sched2, s)
    ensures var r1, r2 := BuildTable(s, mapper, sched1), BuildTable(s, mapper, sched2);
      && (r1.Panics? <==> r2.Panics?)
      && (r1.Returns? ==>
            && r1.value.familyRow == r2.value.familyRow
            && r1.value.columnRow == r2.value.columnRow
            && (forall row :: row in r1.value.body <==> row in r2.value.body))
  {
    var r1, r2 := BuildTable(s, mapper, sched1), BuildTable(s, mapper, sched2);
    TableContents(s, mapper, sched1);
    TableContents(s, mapper, sched2);
    HeaderOrderIndependent(s.columns, s.columnIndex, sched1.entries, sched2.entries);
    if r1.Returns? {
      ExpectedRowsAgree(s.rows, s.columnIndex, mapper, sched1.rowKeys, r1.value.body, sched2.rowKeys, r2.value.body);
      ExpectedRowsAgree(s.rows, s.columnIndex, mapper, sched2.rowKeys, r2.value.body, sched1.rowKeys, r1.value.body);
    }
  }
}

=== FILE: representation.dfy ===
/**
  `WriteTable` as a whole (representation/table.go, lines 24-101): collect
  the delivered rows, surface the read error, refuse an empty result, then
  build the table. Writing the rendered table to the output is not modelled;
  the result is the table handed to the writer, or the failure.
*/
module Representation {
  import opened Go
  import opened Bigtable
  import opened Collector
  import opened Renderer

  /** Why `WriteTable` produced no table. */
  datatype Failure =
    | SourceError(message: string)   // the error `ReadRows` returned, passed through (lines 57-59)
    | NoRowsForPrefix(prefix: string) // no row was collected (lines 61-63)
    | Panic                           // a run-time panic: a negative slice bound, or the mapper
  {
    /** The text of the returned error; a panic returns no error. */
    function Message(): (m: string)
      requires !Panic?
      ensures SourceError? ==> m == message
      ensures NoRowsForPrefix? ==> NoRowsText <= m && TrimPrefix(m, NoRowsText) == prefix
    {
      match this
      case SourceError(message) => message
      case NoRowsForPrefix(prefix) =>
        TrimPrefixOfPrefixed(NoRowsText, prefix);
        NoRowsText + prefix
    }
  }

  /** The fixed part of the empty-result error (line 62). */
  const NoRowsText: string := "no rows returned for prefix: "

  /**
    `WriteTable` on the rows `ReadRows` delivered to the callback and the
    error it returned. `sched` is the iteration order Go happens to use for
    the maps of the collected state; it is only consulted when the cell-size
    limit is a valid slice bound.

    A negative limit makes `cell.Value[:limitCellSize]` panic on the first
    cell, because every length exceeds it; with no cell at all nothing is
    sliced, the read error is returned if there is one, and otherwise the
    grid is empty.
  */
  function WriteTable(fetch: Fetch, prefix: string, limitCellSize: int, mapper: Option<ValueMapper>, sched: Schedule)
    : (r: Result<Table, Failure>)
    requires limitCellSize >= 0 ==> ValidSchedule(sched, Collect(fetch.rows, limitCellSize))
    ensures r.Success? ==> fetch.err.None? && limitCellSize >= 0 && CellCount(fetch.rows) > 0
    ensures r.Failure? && r.error.SourceError? <==>
      fetch.err.Some? && (limitCellSize >= 0 || CellCount(fetch.rows) == 0)
    ensures r.Failure? && r.error.SourceError? ==> fetch.err == Some(r.error.message)
    ensures r.Failure? && r.error.NoRowsForPrefix? <==> fetch.err.None? && CellCount(fetch.rows) == 0
    ensures r.Failure? && r.error.NoRowsForPrefix? ==> r.error.prefix == prefix
    ensures limitCellSize < 0 && CellCount(fetch.rows) > 0 ==> r == Failure(Panic)
  {
    if limitCellSize < 0 && CellCount(fetch.rows) > 0 then Failure(Panic)
    else if fetch.err.Some? then Failure(SourceError(fetch.err.value))
    else if limitCellSize < 0 then Failure(NoRowsForPrefix(prefix))
    else
      var s := Collect(fetch.rows, limitCellSize);
      CollectRowKeys(fetch.rows, limitCellSize);
      if |s.rows| == 0 then Failure(NoRowsForPrefix(prefix))
      else
        match BuildTable(s, mapper, sched)
        case Panics => Failure(Panic)
        case Returns(t) => Success(t)
  }

  /** A limit that is a valid slice bound; the schedule fits the collected state. */
  ghost predicate Runnable(fetch: Fetch, limitCellSize: int, sched: Schedule) {
    limitCellSize >= 0 && ValidSchedule(sched, Collect(fetch.rows, limitCellSize))
  }

  /**
    After a successful read, at any limit, the empty-result error is returned
    exactly when no cell was delivered: with a negative limit and some cell
    the run panics instead.
  */
  lemma NoRowsExactlyWhenNoCells(fetch: Fetch, prefix: string, limitCellSize: int, mapper: Option<ValueMapper>,
                                 sched: Schedule)
    requires limitCellSize >= 0 ==> ValidSchedule(sched, Collect(fetch.rows, limitCellSize))
    requires fetch.err.None?
    ensures WriteTable(fetch, prefix, limitCellSize, mapper, sched) == Failure(NoRowsForPrefix(prefix))
      <==> CellCount(fetch.rows) == 0
  {
    if limitCellSize >= 0 {
      CollectRowKeys(fetch.rows, limitCellSize);
      Unfold(fetch, prefix, limitCellSize, mapper, sched);
    }
  }

  /**
    After a successful read with a valid limit and some cells, `WriteTable`
    fails with a panic exactly when the mapper panics on a stored value, and
    succeeds otherwise.
  */
  lemma PanicsExactlyWhenMapperPanics(
    fetch: Fetch, prefix: string, limitCellSize: int, mapper: Option<ValueMapper>, sched: Schedule)
    requires Runnable(fetch, limitCellSize, sched) && fetch.err.None? && CellCount(fetch.rows) > 0
    ensures var r := WriteTable(fetch, prefix, limitCellSize, mapper, sched);
      && (r == Failure(Panic) <==> !RendersAll(Collect(fetch.rows, limitCellSize).rows, mapper))
      && (r.Failure? ==> r.error.Panic?)
  {
    var s := Collect(fetch.rows, limitCellSize);
    CollectRowKeys(fetch.rows, limitCellSize);
    TablePanics(s, mapper, sched);
  }

  /**
    A successful `WriteTable` on rows read with the latest-version filter:
    both header rows have one slot per delivered cell plus the row-key slot,
    every directory entry is named at its index and names the column of the
    delivered cell stored at that index, the grid holds the row keys the
    cells carry, and the data rows are exactly their expected rows.
  */
  lemma WriteTableContents(
    fetch: Fetch, prefix: string, limitCellSize: int, mapper: Option<ValueMapper>, sched: Schedule)
    requires Runnable(fetch, limitCellSize, sched)
    requires LatestVersionOnly(fetch.rows)
    ensures var r := WriteTable(fetch, prefix, limitCellSize, mapper, sched);
      var s := Collect(fetch.rows, limitCellSize);
      r.Success? ==>
        && |r.value.familyRow| == CellCount(fetch.rows) + 1
        && |r.value.columnRow| == CellCount(fetch.rows) + 1
        && (forall f, c | f in s.columns && c in s.columns[f] ::
              && r.value.familyRow[s.columns[f][c]] == Text(f)
              && r.value.columnRow[s.columns[f][c]] == Text(ShortName(f, c)))
        && NamesDelivered(s, DeliveredCells(fetch.rows))
        && s.rows.Keys == CellRowKeys(fetch.rows)
        && RendersAll(s.rows, mapper)
        && (forall row :: row in r.value.body <==>
              exists key | key in s.rows :: row == ExpectedRow(key, s.rows[key], s.columnIndex, mapper))
  {
    var s := Collect(fetch.rows, limitCellSize);
    CollectRowKeys(fetch.rows, limitCellSize);
    CollectInjective(fetch.rows, limitCellSize);
    CollectCountsCells(fetch.rows, limitCellSize);
    CollectNames(fetch.rows, limitCellSize);
    TableContents(s, mapper, sched);
    TableRows(s, mapper, sched);
  }

  /**
    The header slot `i` of table `t` names `family` and the short name of
    `column`; the i-th delivered cell is a cell of `column`, and its value,
    cut to `limit` and rendered, fills slot `i` of a data row that starts
    with the cell's row key.
  */
  ghost predicate UnderItsHeader(t: Table, family: string, column: string, i: nat, cells: seq<Cell>, limit: nat,
                                 mapper: Option<ValueMapper>) {
    && 1 <= i <= |cells| && i < |t.familyRow| && i < |t.columnRow|
    && t.familyRow[i] == Text(family) && t.columnRow[i] == Text(ShortName(family, column))
    && cells[i - 1].column == column
    && Shows(t.body, |cells| + 1, cells[i - 1].row, i, Truncate(cells[i - 1].value, limit), mapper)
  }

  /**
    A successful `WriteTable` on rows read with the latest-version filter
    puts each value under the header of its own column: for every directory
    entry (family, column) with index i, header slot i names the family and
    the column, and slot i of a data row holds the value of the i-th
    delivered cell, which is a cell of that column.
  */
  lemma WriteTableValuesUnderTheirHeader(fetch: Fetch, prefix: string, limitCellSize: int,
                                         mapper: Option<ValueMapper>, sched: Schedule)
    requires Runnable(fetch, limitCellSize, sched)
    requires LatestVersionOnly(fetch.rows)
    ensures var r := WriteTable(fetch, prefix, limitCellSize, mapper, sched);
      var s := Collect(fetch.rows, limitCellSize);
      r.Success? ==>
        forall f, c | f in s.columns && c in s.columns[f] ::
          UnderItsHeader(r.value, f, c, s.columns[f][c], DeliveredCells(fetch.rows), limitCellSize, mapper)
  {
    var r := WriteTable(fetch, prefix, limitCellSize, mapper, sched);
    if r.Success? {
      var s, cells := Collect(fetch.rows, limitCellSize), DeliveredCells(fetch.rows);
      WriteTableContents(fetch, prefix, limitCellSize, mapper, sched);
      WriteTableShowsEveryValue(fetch, prefix, limitCellSize, mapper, sched);
      HeaderOverShown(s, r.value, cells, limitCellSize, mapper);
    }
  }

  /** Where the header names every entry and every delivered cell is shown, each entry heads its own cell. */
  lemma HeaderOverShown(s: State, t: Table, cells: seq<Cell>, limit: nat, mapper: Option<ValueMapper>)
    requires |t.familyRow| == |cells| + 1 && |t.columnRow| == |cells| + 1
    requires NamesDelivered(s, cells)
    requires forall f, c | f in s.columns && c in s.columns[f] ::
      && t.familyRow[s.columns[f][c]] == Text(f)
      && t.columnRow[s.columns[f][c]] == Text(ShortName(f, c))
    requires ShowsDelivered(t.body, cells, limit, mapper)
    ensures forall f, c | f in s.columns && c in s.columns[f] ::
      UnderItsHeader(t, f, c, s.columns[f][c], cells, limit, mapper)
  {
    forall f, c | f in s.columns && c in s.columns[f]
      ensures UnderItsHeader(t, f, c, s.columns[f][c], cells, limit, mapper)
    {
      var i := s.columns[f][c];
      assert Shows(t.body, |cells| + 1, cells[i - 1].row, (i - 1) + 1, Truncate(cells[i - 1].value, limit), mapper);
    }
  }

  /**
    `body` shows every cell of `cells`: the k-th, cut to `limit` and rendered,
    fills slot k + 1 of a row that starts with the cell's row key and has one
    slot per cell plus the key slot.
  */
  ghost predicate ShowsDelivered(body: seq<seq<Slot>>, cells: seq<Cell>, limit: nat, mapper: Option<ValueMapper>) {
    forall k | 0 <= k < |cells| ::
      Shows(body, |cells| + 1, cells[k].row, k + 1, Truncate(cells[k].value, limit), mapper)
  }

  /**
    A successful `WriteTable` on rows read with the latest-version filter
    shows every delivered value: the k-th delivered cell, cut to the limit and
    rendered, fills slot k + 1 of a data row that starts with the cell's row
    key and has one slot per delivered cell plus the key slot.
  */
  lemma WriteTableShowsEveryValue(
    fetch: Fetch, prefix: string, limitCellSize: int, mapper: Option<ValueMapper>, sched: Schedule)
    requires Runnable(fetch, limitCellSize, sched)
    requires LatestVersionOnly(fetch.rows)
    ensures var r := WriteTable(fetch, prefix, limitCellSize, mapper, sched);
      r.Success? ==> ShowsDelivered(r.value.body, DeliveredCells(fetch.rows), limitCellSize, mapper)
  {
    var r := WriteTable(fetch, prefix, limitCellSize, mapper, sched);
    if r.Success? {
      assert BuildTable(Collect(fetch.rows, limitCellSize), mapper, sched) == Returns(r.value) by {
        Unfold(fetch, prefix, limitCellSize, mapper, sched);
      }
      CollectedTableShowsDelivered(fetch.rows, limitCellSize, mapper, sched);
    }
  }

  /** The table built from the collected state shows every delivered value. */
  lemma CollectedTableShowsDelivered(rows: seq<Row>, limit: nat, mapper: Option<ValueMapper>, sched: Schedule)
    requires ValidSchedule(sched, Collect(rows, limit)) && LatestVersionOnly(rows)
    ensures var t := BuildTable(Collect(rows, limit), mapper, sched);
      t.Returns? ==> ShowsDelivered(t.value.body, DeliveredCells(rows), limit, mapper)
  {
    var s, cells := Collect(rows, limit), DeliveredCells(rows);
    var t := BuildTable(s, mapper, sched);
    if t.Returns? {
      assert forall key, i | key in s.rows && i in s.rows[key] ::
          Shows(t.value.body, s.columnIndex + 1, key, i, s.rows[key][i], mapper) by {
        CollectInjective(rows, limit);
        TableShowsStoredValues(s, mapper, sched);
      }
      assert GridOf(s, cells, limit) by {
        CollectKeepsEveryValue(rows, limit);
      }
      StoredShownDelivered(s, cells, limit, mapper, t.value.body);
    }
  }

  /** Where every stored value is shown and every delivered cell is stored, every delivered cell is shown. */
  lemma StoredShownDelivered(
    s: State, cells: seq<Cell>, limit: nat, mapper: Option<ValueMapper>, body: seq<seq<Slot>>)
    requires forall key, i | key in s.rows && i in s.rows[key] ::
      Shows(body, s.columnIndex + 1, key, i, s.rows[key][i], mapper)
    requires GridOf(s, cells, limit)
    ensures ShowsDelivered(body, cells, limit, mapper)
  {
    forall k | 0 <= k < |cells|
      ensures Shows(body, |cells| + 1, cells[k].row, k + 1, Truncate(cells[k].value, limit), mapper)
    {
      assert Shows(body, s.columnIndex + 1, cells[k].row, k + 1, s.rows[cells[k].row][k + 1], mapper);
    }
  }

  /**
    On rows read with the latest-version filter, the outcome does not depend
    on the iteration orders of the directory, the row keys and each row's
    stored values (lines 73-74, 84 and 87): two schedules give the same
    failure, or tables with the same header rows and the same data rows. The
    order of a row's families (line 38) is fixed by the input and is not
    varied here.
  */
  lemma WriteTableOrderIndependent(fetch: Fetch, prefix: string, limitCellSize: int, mapper: Option<ValueMapper>,
                                   sched1: Schedule, sched2: Schedule)
    requires Runnable(fetch, limitCellSize, sched1) && Runnable(fetch, limitCellSize, sched2)
    requires LatestVersionOnly(fetch.rows)
    ensures var r1, r2 :=
        WriteTable(fetch, prefix, limitCellSize, mapper, sched1),
        WriteTable(fetch, prefix, limitCellSize, mapper, sched2);
      && (r1.Failure? ==> r1 == r2)
      && (r1.Success? ==>
            && r2.Success?
            && r1.value.familyRow == r2.value.familyRow
            && r1.value.columnRow == r2.value.columnRow
            && (forall row :: row in r1.value.body <==> row in r2.value.body))
  {
    var s := Collect(fetch.rows, limitCellSize);
    Unfold(fetch, prefix, limitCellSize, mapper, sched1);
    Unfold(fetch, prefix, limitCellSize, mapper, sched2);
    if fetch.err.None? && |s.rows| > 0 {
      CollectInjective(fetch.rows, limitCellSize);
      TableOrderIndependent(s, mapper, sched1, sched2);
    }
  }

  /** `WriteTable` with a valid limit, one step at a time. */
  lemma Unfold(fetch: Fetch, prefix: string, limitCellSize: int, mapper: Option<ValueMapper>, sched: Schedule)
    requires Runnable(fetch, limitCellSize, sched)
    ensures var s := Collect(fetch.rows, limitCellSize);
      WriteTable(fetch, prefix, limitCellSize, mapper, sched) ==
        if fetch.err.Some? then Failure(SourceError(fetch.err.value))
        else if |s.rows| == 0 then Failure(NoRowsForPrefix(prefix))
        else if BuildTable(s, mapper, sched).Panics? then Failure(Panic)
        else Success(BuildTable(s, mapper, sched).value)
  {
    CollectRowKeys(fetch.rows, limitCellSize);
  }
}

=== FILE: vcbt.dfy ===
/**
  The command (main.go): the default cell-size limit and the value mapper
  it hands to `WriteTable`. Flag parsing, the client connection and
  `log.Fatal` are not modelled.
*/
module Vcbt {
  import opened Go
  import opened Bigtable
  import opened Collector
  import opened Renderer
  import opened Representation

  /** The default of `-max-cell-size` (line 29). */
  const DefaultMaxCellSize: nat := MaxInt

  /** What the mapper shows for a deleted value. */
  const Deleted: string := "<deleted>"

  /** What the mapper shows for a value whose data has not been received yet. */
  const Pending: string := "<pending>"

  /**
    The mapper passed to `WriteTable` (lines 44-51): a nil value reads as
    deleted, a value starting with a zero byte as pending, anything else is
    left to the raw rendering. It reads `data[0]` of every non-nil value, so
    a non-nil empty value panics.
  */
  function ReferenceMapper(data: Bytes): (r: Run<Mapping>)
    ensures r.Panics? <==> data == Slice([])
    ensures r.Returns? && r.value.mapped ==> r.value.representation == Deleted || r.value.representation == Pending
    ensures r.Returns? && !r.value.mapped ==> r.value.representation == ""
  {
    match data
    case Nil => Returns(Mapping(Deleted, true))
    case Slice(bytes) =>
      if |bytes| == 0 then Panics
      else if bytes[0] == 0 then Returns(Mapping(Pending, true))
      else Returns(Mapping("", false))
  }

  /**
    How a stored value is shown under the reference mapper: a nil value as
    deleted, a value with a leading zero byte as pending whatever follows it,
    any other non-empty value as its own bytes; a non-nil empty value panics.
  */
  lemma ReferenceRendering(data: Bytes)
    ensures var r := RenderCell(data, Some(ReferenceMapper));
      && (data.Nil? ==> r == Returns(Text(Deleted)))
      && (data == Slice([]) ==> r.Panics?)
      && (data.Slice? && |data.data| > 0 ==>
            r == Returns(if data.data[0] == 0 then Text(Pending) else Raw(data.data)))
  {
    if data.Slice? && |data.data| > 0 && data.data[0] != 0 {
      assert ReferenceMapper(data) == Returns(Mapping("", false));
    }
  }

  /** A value that starts with a zero byte is pending, whatever its other bytes are. */
  lemma PendingWhateverFollows(rest: seq<byte>)
    ensures RenderCell(Slice([0] + rest), Some(ReferenceMapper)) == Returns(Text(Pending))
  {
    assert ReferenceMapper(Slice([0] + rest)) == Returns(Mapping(Pending, true));
  }

  /** Under the default limit every value a 64-bit Go slice can hold is stored unchanged. */
  lemma DefaultLimitKeepsValues(v: Bytes)
    requires v.Len() <= MaxInt
    ensures Truncate(v, DefaultMaxCellSize) == v
  {
    TruncateKeepsShortValues(v, DefaultMaxCellSize);
  }

  /**
    With the default limit and the reference mapper, a successful read with
    some cells produces a table when no delivered value is a non-nil empty
    slice.
  */
  lemma DefaultRunSucceeds(fetch: Fetch, prefix: string, sched: Schedule)
    requires Runnable(fetch, DefaultMaxCellSize, sched) && fetch.err.None? && CellCount(fetch.rows) > 0
    requires forall r, f, c | r in fetch.rows && f in r.families && c in f.cells ::
      c.value != Slice([]) && c.value.Len() <= MaxInt
    ensures WriteTable(fetch, prefix, DefaultMaxCellSize, Some(ReferenceMapper), sched).Success?
  {
    var s := Collect(fetch.rows, DefaultMaxCellSize);
    var nonEmpty := (v: Bytes) => v != Slice([]);
    forall r, f, c | r in fetch.rows && f in r.families && c in f.cells
      ensures nonEmpty(Truncate(c.value, DefaultMaxCellSize))
    {
      DefaultLimitKeepsValues(c.value);
    }
    CollectStores(fetch.rows, DefaultMaxCellSize, nonEmpty);
    assert RendersAll(s.rows, Some(ReferenceMapper)) by {
      forall key, i | key in s.rows && i in s.rows[key]
        ensures RenderCell(s.rows[key][i], Some(ReferenceMapper)).Returns?
      {
        assert nonEmpty(s.rows[key][i]);
      }
    }
    PanicsExactlyWhenMapperPanics(fetch, prefix, DefaultMaxCellSize, Some(ReferenceMapper), sched);
  }

  /**
    `-max-cell-size 0` with the reference mapper: every non-nil value is cut
    to a non-nil empty slice, the mapper reads its first byte, and the run
    panics as soon as one such value is stored.
  */
  lemma ZeroLimitPanics(fetch: Fetch, prefix: string, sched: Schedule)
    requires Runnable(fetch, 0, sched) && fetch.err.None? && CellCount(fetch.rows) > 0
    requires forall r, f, c | r in fetch.rows && f in r.families && c in f.cells :: c.value.Slice?
    ensures WriteTable(fetch, prefix, 0, Some(ReferenceMapper), sched) == Failure(Panic)
  {
    var s := Collect(fetch.rows, 0);
    var cutEmpty := (v: Bytes) => v == Slice([]);
    forall r, f, c | r in fetch.rows && f in r.families && c in f.cells
      ensures cutEmpty(Truncate(c.value, 0))
    {
      assert Truncate(c.value, 0).Slice? && Truncate(c.value, 0).Len() == 0;
    }
    CollectStores(fetch.rows, 0, cutEmpty);
    CollectRowKeys(fetch.rows, 0);
    var key :| key in s.rows;
    var i :| i in s.rows[key];
    assert cutEmpty(s.rows[key][i]);
    assert RenderCell(s.rows[key][i], Some(ReferenceMapper)).Panics?;
    PanicsExactlyWhenMapperPanics(fetch, prefix, 0, Some(ReferenceMapper), sched);
  }

  /**
    The mapper with the length check its first-byte test evidently assumes:
    a non-nil empty value is left to the raw rendering instead of panicking.
  */
  function GuardedMapper(data: Bytes): (r: Run<Mapping>)
    ensures r.Returns?
    ensures ReferenceMapper(data).Returns? ==> r == ReferenceMapper(data)
    ensures data == Slice([]) ==> r.value == Mapping("", false)
  {
    match data
    case Nil => Returns(Mapping(Deleted, true))
    case Slice(bytes) =>
      if |bytes| > 0 && bytes[0] == 0 then Returns(Mapping(Pending, true))
      else Returns(Mapping("", false))
  }

  /**
    With the guarded mapper, a successful read with some cells produces a
    table under every valid limit, zero included.
  */
  lemma GuardedRunSucceeds(fetch: Fetch, prefix: string, limitCellSize: int, sched: Schedule)
    requires Runnable(fetch, limitCellSize, sched) && fetch.err.None? && CellCount(fetch.rows) > 0
    ensures WriteTable(fetch, prefix, limitCellSize, Some(GuardedMapper), sched).Success?
  {
    var s := Collect(fetch.rows, limitCellSize);
    assert RendersAll(s.rows, Some(GuardedMapper)) by {
      forall key, i | key in s.rows && i in s.rows[key]
        ensures RenderCell(s.rows[key][i], Some(GuardedMapper)).Returns?
      {
        assert GuardedMapper(s.rows[key][i]).Returns?;
      }
    }
    PanicsExactlyWhenMapperPanics(fetch, prefix, limitCellSize, Some(GuardedMapper), sched);
  }
}
